=== FILE: README.md ===
# open-scope collector and dataset statistics, modelled in Dafny

This project models the data-collection layer of open-scope: three collectors that take a
ranking CSV of GitHub repositories, query the GitHub REST API for each repository's metadata
(description, homepage, topics) and README, and write one JSON record per repository. It also
models the statistics pass that later summarises the collected dataset.

- **The resumable collector** (`dataset/dataset_script_mulio_fail_retry.py`).
  - `fetch_json` retries exceptions and unexhausted 403/429 answers up to three times with
    1, 2 and 4 second backoff.
  - On a 403 or 429 whose `X-RateLimit-Remaining` is `"0"` and whose `X-RateLimit-Reset` is
    non-empty and converts to an integer, it sleeps `max(reset - now + 5, 10)` seconds. It then
    gives up with `rate_limit_or_forbidden_<code>` and does not retry.
  - It reports every failure as a one-key dictionary `{"_error": reason}`.
  - `get_repo_info` and `get_readme` turn that dictionary into fields or reasons.
  - `process_repo` builds a record with `success` and `fail_reason`. It appends the record to
    the output or to the failed file, and maintains the success index and the in-memory set of
    successful ids.
  - `main` builds the pending list from the CSV and the previous failed file, then runs rounds
    until a round has no failures.
- **The concurrent collector** (`dataset/dataset_script_mulio.py`). Its fetcher has the same
  backoff, but no quota pause and no reasons. A missing README makes a repository fail, and
  every record goes to one output file.
- **The first, sequential collector** (`dataset/dataset_script.py`). It makes one request per
  endpoint and does not retry. It skips repositories without metadata, and an exception ends
  the run.
- **The statistics script** (`data/data.py`).
  - `load_data` flattens and truncates the dataset.
  - `parse_topics` reads a topic field.
  - `analyze_dataset` is a single pass over the records. It keeps counters, samples the first
    ten records and ranks the thirty most frequent topics.

**How the outside world is modelled.**
- The network is an oracle `Net = nat -> Attempt`: the i-th request of a run receives `net(i)`.
  Each answer is an exception or a reply. A reply carries a status, the two rate-limit headers,
  a body and the clock reading.
- Sleeps are returned as lists of durations in milliseconds.
- Base64/UTF-8 decoding is an abstract `Decoder`.
- `ast.literal_eval` is an abstract `Evaluator`.
- The iteration order of a Python set is an abstract `Iteration`.

Each operation is paired with something independent:
- the retry loop with a reference reading of its attempts and sleeps (`Retry`);
- the resolvers with both directions of their success conditions;
- the log effects with the invariant that the success index mirrors the id set;
- the pending list with a dictionary `Lookup`;
- each statistics counter with a reference definition in `Dataset` (`CountIf`, `SumTopics`,
  `UnionTopics`, `MaxTopics`, `MinTopics`), connected by induction over the records.

Modules:
- `Common`: JSON values, rows, answers, decimal rendering.
- `Retry`: the shared bounded backoff loop.
- `Fetcher`, `Resolvers`, `Processor`, `Pending`, `Scheduler`: the resumable collector.
- `Mulio`: the concurrent collector.
- `Script`: the sequential collector.
- `Dataset`, `Analysis`: the statistics.

Some behaviours of the resumable collector are easy to misread. Each is stated as a proved
property of the code as written:

- **Both resolvers fail.** The README reason overwrites the metadata reason
  (`dataset/dataset_script_mulio_fail_retry.py:110-120`, `Processor.BothFailReadmeWins`).
- **Duplicate output lines.**
  - Every success is appended to the output. Only the success index is deduplicated
    against the success set (`dataset/dataset_script_mulio_fail_retry.py:137-144`,
    `Processor.RepeatedSuccessDuplicatesOutput`).
  - Failed-file rows join the pending list without a check against the success set
    (`dataset/dataset_script_mulio_fail_retry.py:163-169`, `Pending.FailedRowsNotFiltered`).
- **The failed file.**
  - It is emptied once at start-up, and full records are appended to it during a round.
  - It is overwritten with bare rows only after a round with failures. So a clean last round
    leaves the previous round's rows in it (`dataset/dataset_script_mulio_fail_retry.py:172-197`,
    `Scheduler.StaleFailedFile`).
- **Null reasons.** A failed repository whose payload carries `"_error": null` is recorded with
  a null reason, so a null reason does not by itself mean success
  (`dataset/dataset_script_mulio_fail_retry.py:110-112`, `Processor.NullReasonCanFail`).

## Model

| member | source | states |
|---|---|---|
| Retry.Retrying | dataset/dataset_script_mulio_fail_retry.py:50-59 | a call makes between 1 and RETRY_LIMIT+1 requests; every answer before the last was retried; it ends on a retried answer only once the retries are used up |
| Retry.RetryingSleeps | dataset/dataset_script_mulio_fail_retry.py:50-59 | the sleeps are 2^r seconds before retry r+1, in order, followed only by the final answer's own pause |
| Retry.FirstFinalEnds | dataset/dataset_script_mulio_fail_retry.py:50-59 | k retried answers followed by a final one give exactly k+1 requests and sleeps 1, 2, ..., 2^(k-1) s plus the final pause |
| Retry.AllRetriedExhausts | dataset/dataset_script_mulio_fail_retry.py:50-59 | when every answer is retried, the call issues 4 requests and sleeps exactly 1, 2 and 4 s |
| Fetcher.QuotaPause | dataset/dataset_script_mulio_fail_retry.py:47-49 | the quota pause is max(reset - now + 5, 10) seconds: never below 10 s or below five seconds past the reset |
| Fetcher.FetchJson | dataset/dataset_script_mulio_fail_retry.py:36-60 | one fetch issues at least one and at most RETRY_LIMIT+1 = 4 requests |
| Fetcher.FetchRetries | dataset/dataset_script_mulio_fail_retry.py:43-59 | only exceptions (transport, body parsing, reset conversion) and 403/429 without an exhausted quota are retried; a retried last answer means all 4 requests were used |
| Fetcher.FetchSleeps | dataset/dataset_script_mulio_fail_retry.py:46-58 | a fetch sleeps 2^r s before retry r+1 and then, only if it ended on an exhausted quota, the quota pause |
| Fetcher.FetchSettlesAt | dataset/dataset_script_mulio_fail_retry.py:36-60 | a final answer after k retried ones ends the fetch at request k+1 with that answer's value, after the backoff of the k retries |
| Fetcher.FetchFirstReply | dataset/dataset_script_mulio_fail_retry.py:39-55 | for a status other than 403/429, with a JSON object body when 200, the first reply settles the fetch after one request with no sleep: 200 gives the payload, 404 gives `not_found`, any other status gives `status_<code>` |
| Fetcher.FetchQuotaPause | dataset/dataset_script_mulio_fail_retry.py:43-53 | a 403/429 with remaining quota "0" and a reset header is not retried: one request, one pause of at least 10 s, reason `rate_limit_or_forbidden_<code>` |
| Fetcher.FetchGivesUp | dataset/dataset_script_mulio_fail_retry.py:50-60 | when every answer is retried, the fetch issues 4 requests, sleeps 1, 2 and 4 s, and reports the last answer's `exception_<type>: <msg>` or `rate_limit_or_forbidden_<code>` |
| Resolvers.InfoOf | dataset/dataset_script_mulio_fail_retry.py:65-71 | metadata fails exactly on an empty dictionary (`unknown_error`) or one holding `_error` (that reason); otherwise it keeps description and homepage, and topics defaults to `[]` |
| Resolvers.ReadmeOf | dataset/dataset_script_mulio_fail_retry.py:77-87 | the README succeeds exactly when the dictionary is non-empty, has no `_error`, has `content`, and that content decodes; the failures are checked in the order `no_response`, propagated reason, `no_content_field`, `decode_error_<type>` |
| Resolvers.GetRepoInfo | dataset/dataset_script_mulio_fail_retry.py:62-71 | the metadata resolver's result is `InfoOf` of one fetch, and it issues exactly that fetch's requests (at most 4) and sleeps |
| Resolvers.GetReadme | dataset/dataset_script_mulio_fail_retry.py:74-87 | the README resolver's result is `ReadmeOf` of one fetch, and it issues exactly that fetch's requests (at most 4) and sleeps |
| Resolvers.ErrorDictPropagates | dataset/dataset_script_mulio_fail_retry.py:65-80 | both resolvers pass a fetch reason on unchanged |
| Resolvers.NotFoundResolves | dataset/dataset_script_mulio_fail_retry.py:41-80 | a 404 gives both resolvers `not_found` after one request and no sleep |
| Resolvers.InfoFromPayload | dataset/dataset_script_mulio_fail_retry.py:62-71 | a 200 payload without `_error` yields its description, its homepage, and its topics (defaulting to `[]`) |
| Processor.BuildRecord | dataset/dataset_script_mulio_fail_retry.py:103-135 | success holds iff the metadata succeeded and the README succeeded or failed with exactly `not_found`; a success has a null reason; the README's failing reason overwrites the metadata's; failed metadata blanks the three fields |
| Processor.Commit | dataset/dataset_script_mulio_fail_retry.py:137-147 | a success is appended to the output and also to the index iff its id is not in the set, after which the id is in the set; a failure is appended to the failed file and nothing else changes |
| Processor.CommitKeepsConsistent | dataset/dataset_script_mulio_fail_retry.py:141-144 | the success index and the id set stay in step, and the index never lists an id twice |
| Processor.CommitAppendsOnce | dataset/dataset_script_mulio_fail_retry.py:137-147 | each record adds exactly one line to the output or the failed file and at most one index line, and the id is in the set afterwards iff it was before or the record succeeded |
| Processor.RepeatedSuccessDuplicatesOutput | dataset/dataset_script_mulio_fail_retry.py:138-144 | committing the same success twice writes it to the output twice but adds at most one index line |
| Processor.MakeRecord | dataset/dataset_script_mulio_fail_retry.py:109-150 | one repository issues between 2 and 8 requests, its record is about its row, and it ends with the 0.1 s pause |
| Processor.ProcessRepo | dataset/dataset_script_mulio_fail_retry.py:103-151 | a successful record is appended to the output and leaves the failed file alone; a failed record is appended to the failed file and leaves every other log alone |
| Processor.MissingReadmeSucceeds | dataset/dataset_script_mulio_fail_retry.py:115-123 | metadata found and a README answering 404 give a success with a null README and no reason, after 2 requests |
| Processor.BothFailReadmeWins | dataset/dataset_script_mulio_fail_retry.py:110-120 | when both resolvers fail, the README's reason is recorded, the fields are blank, and the record goes to the failed file |
| Processor.NullReasonCanFail | dataset/dataset_script_mulio_fail_retry.py:65-66 | a payload `{"_error": null}` fails the repository with a null reason, so a null reason does not imply success |
| Pending.Unclaimed | dataset/dataset_script_mulio_fail_retry.py:161 | the ranking rows kept are exactly those whose id is not in the success set: a row is kept iff it is a ranking row with an unclaimed id, and the kept ids are the ranking ids minus the success set |
| Pending.UnclaimedKeepsLast | dataset/dataset_script_mulio_fail_retry.py:161-166 | for every unclaimed id, the last kept row with it is the last ranking row with it |
| Pending.Put | dataset/dataset_script_mulio_fail_retry.py:166 | dictionary assignment: existing keys keep their positions, and a new key is added last |
| Pending.KeyedSpec | dataset/dataset_script_mulio_fail_retry.py:166 | the comprehension keeps each id once, and each id's value is the last row with that id |
| Pending.AddMissingSpec | dataset/dataset_script_mulio_fail_retry.py:167-169 | adding failed-file rows keeps the dictionary as a prefix and keeps ids distinct; an id already present keeps its row, and a new id gets its first failed-file row |
| Pending.PendingList | dataset/dataset_script_mulio_fail_retry.py:161-170 | the pending list has no id twice, and its ids are the ranking ids not in the success set together with the ids of the previous failed file |
| Pending.PendingListSpec | dataset/dataset_script_mulio_fail_retry.py:161-170 | the pending list has no id twice; its ids are the unclaimed ranking ids plus the failed-file ids; an unclaimed ranking id carries the last ranking row with that id, and any other id carries its first failed-file row; the ranking rows come first |
| Pending.FailedRowsNotFiltered | dataset/dataset_script_mulio_fail_retry.py:163-169 | every failed-file row's id is pending even when it is already in the success set |
| Scheduler.RunRound | dataset/dataset_script_mulio_fail_retry.py:176-189 | a round makes exactly one record per row it is given; which rows they are, and what reaches the output, the index and the failed file, is stated by `RoundRows`, `RoundOutput` and `RoundFailed` |
| Scheduler.RoundRows | dataset/dataset_script_mulio_fail_retry.py:179-183 | a round makes one record per row it is given (its rows in finishing order), in that order |
| Scheduler.FailedNext | dataset/dataset_script_mulio_fail_retry.py:184-189 | a row is passed on to the next round exactly when some unsuccessful record of the round is about that row |
| Scheduler.FailedNextIdIff | dataset/dataset_script_mulio_fail_retry.py:184-189 | when a round has no id twice, a repository's id is passed on to the next round exactly when its record is unsuccessful |
| Scheduler.FailedNextShorter | dataset/dataset_script_mulio_fail_retry.py:184-189 | the next round is never longer than the current one |
| Scheduler.FailedNextWithin | dataset/dataset_script_mulio_fail_retry.py:184-189 | the next round only holds rows of the current one |
| Scheduler.FailedNextCovers | dataset/dataset_script_mulio_fail_retry.py:184-189 | every unsuccessful repository of a round is in the next round |
| Scheduler.FailedNextDistinct | dataset/dataset_script_mulio_fail_retry.py:184-189 | a round without repeated ids makes a next round without repeated ids |
| Scheduler.FailedNextEmpty | dataset/dataset_script_mulio_fail_retry.py:184-197 | the next round is empty iff every repository succeeded, and iff the round appended nothing to the failed file |
| Scheduler.RoundOutput | dataset/dataset_script_mulio_fail_retry.py:137-140 | after a round, the output is the old output followed by the round's successes, in order |
| Scheduler.RoundFailed | dataset/dataset_script_mulio_fail_retry.py:145-147 | after a round, the failed file is the old file followed by the round's failed records, in order |
| Scheduler.RoundExtends | dataset/dataset_script_mulio_fail_retry.py:137-147 | a round only extends the output, the index and the id set, and keeps the index in step with the set |
| Scheduler.RoundSuccessIds | dataset/dataset_script_mulio_fail_retry.py:141-144 | after a round, every id that succeeded in it is in the success set |
| Scheduler.SucceededRowsRecorded | dataset/dataset_script_mulio_fail_retry.py:137-144 | after a round in which every repository succeeded, each of its rows has its id in the success set |
| Scheduler.PassesOnWithin | dataset/dataset_script_mulio_fail_retry.py:178-189 | whatever order the workers finish a round in, the rows it passes on are some of its pending rows, never more of them |
| Scheduler.PassesOnDistinct | dataset/dataset_script_mulio_fail_retry.py:178-189 | whatever order the workers finish a round in, pending rows with distinct ids pass on rows with distinct ids |
| Scheduler.Rounds | dataset/dataset_script_mulio_fail_retry.py:176-197 | the rounds run at most the allowed number of times, and an empty pending list runs none |
| Scheduler.RoundsExitClean | dataset/dataset_script_mulio_fail_retry.py:191-197 | the loop stops after a round iff that round had no failures; the failed file is then left as it was |
| Scheduler.RoundsContinue | dataset/dataset_script_mulio_fail_retry.py:191-195 | a round with failures is followed, after a 5 s pause, by a round over exactly its failed rows in the order they failed, with the failed file overwritten by those rows; for every finishing order, there are at least one and at most as many of them as pending rows |
| Scheduler.RoundsExtends | dataset/dataset_script_mulio_fail_retry.py:176-197 | across all rounds the logs only grow, and the index stays in step with the success set |
| Scheduler.RoundsLeftWithin | dataset/dataset_script_mulio_fail_retry.py:176-197 | the rows still pending when the rounds stop are some of the starting rows, never more of them |
| Scheduler.RoundsLeftDistinct | dataset/dataset_script_mulio_fail_retry.py:176-197 | no id is left pending twice |
| Scheduler.RoundsLeftOnlyOutOfFuel | dataset/dataset_script_mulio_fail_retry.py:176-197 | rows are left pending only when every allowed round ran |
| Scheduler.StaleFailedFile | dataset/dataset_script_mulio_fail_retry.py:191-197 | when round two clears round one's failures, the run ends with the failed file still listing those rows, although every one of them is now a success |
| Scheduler.Run | dataset/dataset_script_mulio_fail_retry.py:154-197 | for every finishing order of the workers, a run only appends to the output and the index, keeps a duplicate-free index consistent with the set, and never leaves more rows pending than it started with, none of them twice |
| Mulio.FetchJson | dataset/dataset_script_mulio.py:31-47 | one fetch issues between 1 and 4 requests |
| Mulio.FetchOnlyBacksOff | dataset/dataset_script_mulio.py:36-47 | this fetcher's only sleeps are 1, 2, ... s, one per retry; a retried last answer means all 4 requests were used |
| Mulio.FetchValueIsPayload | dataset/dataset_script_mulio.py:34-47 | a fetch returns a value iff its last answer is a 200 with a JSON object body |
| Mulio.FetchFirstReply | dataset/dataset_script_mulio.py:34-42 | a reply that is not retried settles the fetch after one request with no sleep: 200 gives the payload, and any other status (404 included) gives None |
| Mulio.FetchGivesUp | dataset/dataset_script_mulio.py:36-47 | when every answer is retried, the fetch gives None after 4 requests and sleeps of 1, 2 and 4 s |
| Mulio.InfoOf | dataset/dataset_script_mulio.py:53-59 | metadata is None iff the fetch gave None or an empty dictionary; otherwise it is the three fields, with topics defaulting to `[]` |
| Mulio.ReadmeOf | dataset/dataset_script_mulio.py:64-71 | the README is found iff the fetch gave a dictionary with `content` that decodes, and it is that decoded text |
| Mulio.GetRepoInfo | dataset/dataset_script_mulio.py:50-59 | the metadata resolver's result is `InfoOf` of one fetch, and it issues exactly that fetch's requests (at most 4) and sleeps |
| Mulio.GetReadme | dataset/dataset_script_mulio.py:62-71 | the README resolver's result is `ReadmeOf` of one fetch, and it issues exactly that fetch's requests (at most 4) and sleeps |
| Mulio.BuildRecord | dataset/dataset_script_mulio.py:76-96 | success holds iff both metadata and README were found; missing metadata blanks the fields; a missing README is written as null |
| Mulio.ProcessRepo | dataset/dataset_script_mulio.py:74-106 | one repository issues between 2 and 8 requests, its record is about its row, and it ends with the 0.1 s pause |
| Mulio.MissingReadmeFails | dataset/dataset_script_mulio.py:83-85 | a README answering 404 fails the repository, keeping its metadata, after 2 requests |
| Mulio.EmptyPayloadFails | dataset/dataset_script_mulio.py:52-54 | an empty 200 payload counts as missing metadata: the record fails with blank fields |
| Mulio.MakerOf | dataset/dataset_script_mulio.py:116-117 | each worker's record is about the row it was given, and each worker issues 2 to 8 requests |
| Mulio.Collect | dataset/dataset_script_mulio.py:116-120 | every row processed yields one record, whatever its outcome |
| Mulio.CollectRows | dataset/dataset_script_mulio.py:98-100 | the rows handed to the workers, in the order they finish, each get one record in that order, with 2 to 8 requests per row |
| Mulio.Run | dataset/dataset_script_mulio.py:98-120 | for every finishing order of the workers, the truncated output ends up with exactly one record per CSV row (the output's rows are a permutation of the CSV rows, in finishing order), nothing from earlier runs, and 2 to 8 requests per row |
| Mulio.MakerOfPauses | dataset/dataset_script_mulio.py:104 | every worker of this collector makes the 0.1 s pause |
| Mulio.CollectPauses | dataset/dataset_script_mulio.py:104 | with workers that make the 0.1 s pause, the 0.1 s sleep occurs at least once per row |
| Mulio.RunPauses | dataset/dataset_script_mulio.py:104-117 | for every finishing order, a run sleeps 0.1 s at least once per CSV row |
| Script.GetRepoInfo | dataset/dataset_script.py:23-33 | one request; it raises iff the transport or the 200 body parse raises; it returns None iff the status is not 200; otherwise it returns the three fields, even for an empty payload |
| Script.GetReadme | dataset/dataset_script.py:36-48 | one request; it raises iff the transport or the 200 body parse raises; it finds the README iff the status is 200, `content` is present and it decodes |
| Script.Scan | dataset/dataset_script.py:50-74 | at most one record per row; a finished run used one request per skipped row and two per written row |
| Script.ScanKeepsOrder | dataset/dataset_script.py:55-74 | the written rows are a subsequence of the CSV rows, in CSV order |
| Script.SkippedRow | dataset/dataset_script.py:58-60 | a row whose metadata status is not 200 is skipped after one request |
| Script.NullReadmeStillWritten | dataset/dataset_script.py:62-74 | a row whose metadata was found is written even when its README was not, with a null README |
| Script.FirstRequestRaises | dataset/dataset_script.py:55-60 | an exception on the first request ends the run with nothing written |
| Script.AllUnknownWritesNothing | dataset/dataset_script.py:55-60 | if every metadata request answers 404, the run writes nothing and issues one request per row |
| Dataset.StripLeft | data/data.py:84 | the left strip drops exactly the leading whitespace: what remains is a suffix that starts with a non-space |
| Dataset.StripRight | data/data.py:84 | the right strip drops exactly the trailing whitespace: what remains is a prefix that ends with a non-space |
| Dataset.StripEmptyIff | data/data.py:84 | stripping leaves something iff some character is not whitespace |
| Dataset.HasTextIff | data/data.py:84-95 | a field counts as text iff it is a string with a non-whitespace character; absent, null, empty and blank fields do not count |
| Dataset.ParseTopics | data/data.py:30-47 | absent, null or empty input gives no topics; a set literal gives itself; a list literal gives its elements; any other literal gives the set of its string form; a parse failure gives no topics |
| Dataset.Flatten | data/data.py:14-16 | a record is among the flattened ones iff it is in some partition |
| Dataset.FlattenAppend | data/data.py:14-16 | flattening distributes over concatenating partition lists, so with `FlattenOne` the result is the partitions concatenated in order |
| Dataset.FlattenOne | data/data.py:16 | one partition is extended onto the empty list unchanged |
| Dataset.FlattenSize | data/data.py:14-16 | the number of records is the sum of the partitions' sizes, duplicates included |
| Dataset.SliceLength | data/data.py:19-20 | `[:limit]` keeps the first `limit` records, or with a negative limit all but the last `-limit` |
| Dataset.LoadData | data/data.py:7-28 | an unreadable file gives no records; otherwise the result is a prefix of the concatenated partitions, all of them without a limit and the slice length with one |
| Dataset.CountIfComplement | data/data.py:84-92 | the records with a property and the records without it add up to all the records |
| Dataset.BothBounded | data/data.py:94-95 | records with both a description and a README number no more than those with either one |
| Dataset.FrequencyBounded | data/data.py:115-116 | no topic occurs in more records than have topics |
| Dataset.UniqueBounded | data/data.py:130-131 | there are no more distinct topics than topic occurrences |
| Dataset.ByCountSums | data/data.py:104 | the by-size counts sum to the number of records with topics |
| Dataset.MaxMinTopics | data/data.py:107-137 | the minimum is undefined iff no record has topics, and the maximum is then 0; otherwise 1 <= minimum <= maximum |
| Analysis.Bump | data/data.py:104 | a counter increment adds one to its key and changes no other key |
| Analysis.BumpAll | data/data.py:115-116 | each member of the topic set gains one occurrence, and nothing else changes |
| Analysis.Clip | data/data.py:124 | a description of up to 100 characters is kept; a longer one becomes its first 100 characters followed by `...` |
| Analysis.SampleOf | data/data.py:121-127 | a sample fails iff the description is null; otherwise it holds the name (default `Unknown`), the clipped description (default empty), the topic count and the first five topics in iteration order |
| Analysis.CountTexts | data/data.py:74-95 | one record raises the total by one and adds one to exactly one of with/empty description and one of with/empty README; with-description grows exactly when the description has text, with-README exactly when the README has text, and the both counter exactly when both have, never more than either of them; the topic counters are untouched |
| Analysis.CountTopics | data/data.py:97-116 | one topic set adds one to exactly one of with/without topics, the with-topics counter growing exactly when the set is non-empty; occurrences grow by the set's size, unique topics by its members, each member's frequency by one and the size's count by one (non-empty sets only); the maximum is the larger of the old one and the size, and a non-empty set leaves a minimum no larger than its size; every text counter is untouched |
| Analysis.Step | data/data.py:73-116 | one record raises the total by one and adds one to exactly one of with/without topics; occurrences grow by the size of its topic set, unique topics by its members, the maximum becomes the larger of the old one and that size, and exactly the topics in the set gain one in frequency |
| Analysis.Fold | data/data.py:73-116 | after any list of records the total is its length and with and without topics sum to it; the other counters are stated by the `Fold*` lemmas below |
| Analysis.FoldTopical | data/data.py:74-118 | every record is counted once; with-topics counts the records with a non-empty topic set; with and without topics sum to the total |
| Analysis.FoldDescriptions | data/data.py:84-87 | with-description counts the records whose description has text, and empty descriptions are the rest |
| Analysis.FoldReadmes | data/data.py:89-92 | with-README counts the records whose README has text, and empty READMEs are the rest |
| Analysis.FoldBoth | data/data.py:94-95 | the both counter counts the records whose description and README both have text |
| Analysis.FoldOccurrences | data/data.py:111-112 | topic occurrences are the sum of the topic-set sizes, and the unique topics are their union |
| Analysis.FoldFrequency | data/data.py:115-116 | each topic's frequency is the number of records whose topic set contains it |
| Analysis.FoldByCount | data/data.py:104 | the count for size k is the number of records with exactly k topics |
| Analysis.FoldExtremes | data/data.py:107-108 | the running maximum and minimum equal the reference maximum and minimum of the topic-set sizes |
| Analysis.FoldDescribes | data/data.py:74-118 | the pass computes every counter as its reference definition says |
| Analysis.PickMost | data/data.py:140 | it picks a remaining topic with the largest count |
| Analysis.MostCommon | data/data.py:140 | the ranking has min(n, number of topics) entries, each a distinct topic with its count, counts non-increasing, and no unlisted topic counts more than the last entry |
| Analysis.RankingStep | data/data.py:140 | ranking a most frequent remaining topic next preserves the ranking invariant |
| Analysis.RankingDone | data/data.py:140 | a ranking that stops at n entries, or when no topic remains, is the n most frequent topics |
| Analysis.SampleTopics | data/data.py:121-127 | when iteration lists each member of a set once, a sample shows min(5, topic count) topics, all of them topics of its record |
| Analysis.SamplesShowOwnTopics | data/data.py:121-127 | every sample taken shows at most five topics, as many as its record has when fewer, all of them its own record's topics |
| Analysis.TakeSample | data/data.py:121-127 | the sample step fails iff the record is among the first ten and its description is null; otherwise the samples still describe the first ten records in order |
| Analysis.Loop | data/data.py:74-127 | the pass raises iff one of the first ten records has a null description; otherwise it yields the folded counters and the samples of the first min(10, n) records |
| Analysis.AnalyzeDataset | data/data.py:49-145 | the analysis fails with the `len` TypeError iff a null description is sampled; otherwise every counter matches its definition, the unique count is the size of the union, the minimum reads 0 without topics, the samples describe the first ten records, and the top topics are the 30 most common |

## Left out

- Threads, the lock and the progress bar: each round is modelled as processing its rows one after another, in a finishing order that is a parameter (`Common.Order`, any permutation of the round's rows; the concurrent collector is modelled the same way). The worker count (MAX_WORKERS) is not modelled.
- Scheduler.RunRound: one finishing order governs both the log appends and the next round; in the source the appends follow who takes the lock first and the next round follows `as_completed`, which can differ slightly. Requests are likewise numbered in that one order, whereas concurrent workers interleave them.
- Scheduler.Rounds: the round loop is given a fuel bound because its termination depends on remote behaviour; the model proves only that each round never grows and that rows are left over only when the fuel runs out.
- File I/O: `load_jsonl`, `save_jsonl`, the CSV reader and all appends and truncations are modelled as sequences of records and rows. Malformed lines are not modelled.
- The clock and `time.sleep`: sleeps are returned as durations, and the clock reading is part of each reply.
- HTTP details: URLs, headers, tokens and the 60-second timeout. A timeout is one of the exceptions an answer can raise.
- Dataset.LoadData: partition values that are not lists of records are not modelled, though `list.extend` accepts any iterable.
- Fetcher.FetchJson: a 200 body that is valid JSON but not an object (a list, a string) is not modelled. The body is either an object or a parse exception.
- Base64 and UTF-8 decoding (RFC 4648 section 4, and UTF-8 with `errors="ignore"`) are the abstract `Decoder`.
- `ast.literal_eval` is the abstract `Evaluator`. Topic values are strings, and exception classes other than SyntaxError/ValueError are not modelled.
- Record fields that are neither strings nor null (such as a numeric description) are not modelled.
- Floating point: `avg_topics_per_repo` and every percentage in `print_statistics`.
- `print_statistics`, `save_statistics` and `main` of data/data.py: console and file output.
- Analysis.MostCommon: ties are ranked in an unspecified order. Python breaks ties by first insertion, which the model does not track.
- Analysis.SampleOf: the order in which `list(topics)` lists a set is the abstract `Iteration`. `SampleOf` itself holds for any iteration. That the listed topics are the set's members is proved in `Analysis.SampleTopics` under `Lists(iterate)`, which states that iteration lists each member once.
- Mulio.Run: the worker pool is a finishing order (`Order`, any permutation of the CSV rows), and records are appended in that order. Requests are numbered one row after another in that order. Concurrent workers interleave their requests, so the model does not say which answer reaches which row when two rows' requests overlap.
- The console messages and `print` calls of every script.

=== FILE: analysis.dfy ===
/** The single pass of the statistics script over the records: the
    counters it keeps, the samples of the first ten records, and the
    ranking of the thirty most frequent topics. */
module Analysis {
  import opened Common
  import opened Dataset

  /** How many times `k` was counted: a counter's missing key reads as 0. */
  function CountOf<K>(m: map<K, nat>, k: K): nat {
    if k in m then m[k] else 0
  }

  /** One more occurrence of `k`. */
  function Bump(m: map<nat, nat>, k: nat): (r: map<nat, nat>)
    ensures forall j :: CountOf(r, j) == CountOf(m, j) + (if j == k then 1 else 0)
  {
    m[k := CountOf(m, k) + 1]
  }

  /** One more occurrence of every member of `s`. */
  function BumpAll(m: map<string, nat>, s: set<string>): (r: map<string, nat>)
    ensures forall j :: CountOf(r, j) == CountOf(m, j) + (if j in s then 1 else 0)
  {
    map j | j in m.Keys + s :: CountOf(m, j) + (if j in s then 1 else 0)
  }

  /** The order in which a topic set is iterated. */
  type Iteration = set<string> -> seq<string>

  /** Iterating a set lists each of its members once and nothing else. */
  ghost predicate Lists(iterate: Iteration) {
    forall s: set<string> :: |iterate(s)| == |s| && forall x :: x in iterate(s) <==> x in s
  }

  /** The description shown in a sample: cut to 100 characters followed by
      an ellipsis when longer. */
  function Clip(d: string): (c: string)
    ensures |d| <= 100 ==> c == d
    ensures |d| > 100 ==> |c| == 103 && c[..100] == d[..100] && c[100..] == "..."
  {
    if |d| > 100 then d[..100] + "..." else d
  }

  /** The summary of one record among the first ten. */
  datatype Sample = Sample(name: Field, description: string, topicsCount: nat, topics: seq<string>)

  const NoLength := Exn("TypeError", "object of type 'NoneType' has no len()")

  /** The sample of a record: its name (`Unknown` when absent), its clipped
      description (empty when absent), its number of topics and the first
      five topics in iteration order. A null description has no length:
      the sample cannot be made. */
  function SampleOf(r: Repo, eval: Evaluator, iterate: Iteration): (s: Option<Sample>)
    ensures s.None? <==> r.description.Null?
    ensures s.Some? ==>
              var topics := TopicsOf(r, eval);
              && s.value.topicsCount == |topics|
              && |s.value.topics| == Min(5, |iterate(topics)|)
              && s.value.topics == iterate(topics)[..|s.value.topics|]
              && s.value.name == (if r.name.Absent? then Str("Unknown") else r.name)
              && s.value.description == (if r.description.Absent? then "" else Clip(r.description.s))
  {
    var topics := TopicsOf(r, eval);
    var shown := iterate(topics);
    var name := if r.name.Absent? then Str("Unknown") else r.name;
    var count := |topics|;
    var listed := shown[..Min(5, |shown|)];
    match r.description
    case Null => None
    case Absent => Some(Sample(name, "", count, listed))
    case Str(d) => Some(Sample(name, Clip(d), count, listed))
  }

  /** The counters of the pass. `minTopics` is None while it is still
      infinite. */
  datatype Tally = Tally(
    total: nat,
    withTopics: nat, withoutTopics: nat,
    withDescription: nat, emptyDescriptions: nat,
    withReadme: nat, emptyReadmes: nat,
    withBoth: nat,
    occurrences: nat, unique: set<string>,
    frequency: map<string, nat>, byCount: map<nat, nat>,
    maxTopics: nat, minTopics: Option<nat>)

  const EmptyTally := Tally(0, 0, 0, 0, 0, 0, 0, 0, 0, {}, map[], map[], 0, None)

  function Inc(n: nat, b: bool): nat {
    if b then n + 1 else n
  }

  /** The text counters after one more record. */
  function CountTexts(t: Tally, r: Repo): (n: Tally)
    ensures n.total == t.total + 1
    ensures n.withDescription + n.emptyDescriptions == t.withDescription + t.emptyDescriptions + 1
    ensures n.withDescription == t.withDescription + 1 <==> HasText(r.description)
    ensures n.withReadme + n.emptyReadmes == t.withReadme + t.emptyReadmes + 1
    ensures n.withReadme == t.withReadme + 1 <==> HasText(r.readme)
    ensures n.withBoth == t.withBoth + 1 <==> HasText(r.description) && HasText(r.readme)
    ensures n.withBoth - t.withBoth <= n.withDescription - t.withDescription
    ensures n.withBoth - t.withBoth <= n.withReadme - t.withReadme
    ensures n.withTopics == t.withTopics && n.withoutTopics == t.withoutTopics
  {
    var desc := HasText(r.description);
    var readme := HasText(r.readme);
    t.(
      total := t.total + 1,
      withDescription := Inc(t.withDescription, desc), emptyDescriptions := Inc(t.emptyDescriptions, !desc),
      withReadme := Inc(t.withReadme, readme), emptyReadmes := Inc(t.emptyReadmes, !readme),
      withBoth := Inc(t.withBoth, desc && readme))
  }

  /** The topic counters after one more record with the given topic set,
      which only a non-empty set touches. */
  function CountTopics(t: Tally, topics: set<string>): (n: Tally)
    ensures n.withTopics + n.withoutTopics == t.withTopics + t.withoutTopics + 1
    ensures n.withTopics == t.withTopics + 1 <==> topics != {}
    ensures n.occurrences == t.occurrences + |topics|
    ensures n.unique == t.unique + topics
    ensures n.maxTopics == Max(t.maxTopics, |topics|)
    ensures topics != {} ==> n.minTopics.Some? && n.minTopics.value <= |topics|
    ensures forall x :: CountOf(n.frequency, x) == CountOf(t.frequency, x) + (if x in topics then 1 else 0)
    ensures forall k :: CountOf(n.byCount, k) == CountOf(t.byCount, k) + (if topics != {} && k == |topics| then 1 else 0)
    ensures n.(withTopics := t.withTopics, withoutTopics := t.withoutTopics, occurrences := t.occurrences, unique := t.unique,
               frequency := t.frequency, byCount := t.byCount, maxTopics := t.maxTopics, minTopics := t.minTopics) == t
  {
    if topics == {} then t.(withoutTopics := t.withoutTopics + 1)
    else
      var k := |topics|;
      t.(
        withTopics := t.withTopics + 1,
        byCount := Bump(t.byCount, k),
        maxTopics := Max(t.maxTopics, k),
        minTopics := if t.minTopics.None? then Some(k) else Some(Min(t.minTopics.value, k)),
        occurrences := t.occurrences + k,
        unique := t.unique + topics,
        frequency := BumpAll(t.frequency, topics))
  }

  /** The counters after one more record: the text counters, then the
      topic counters. */
  function Step(t: Tally, r: Repo, eval: Evaluator): (n: Tally)
    ensures n.total == t.total + 1
    ensures n.withTopics + n.withoutTopics == t.withTopics + t.withoutTopics + 1
    ensures n.occurrences == t.occurrences + |TopicsOf(r, eval)|
    ensures n.unique == t.unique + TopicsOf(r, eval)
    ensures n.maxTopics == Max(t.maxTopics, |TopicsOf(r, eval)|)
    ensures forall x :: CountOf(n.frequency, x) == CountOf(t.frequency, x) + (if x in TopicsOf(r, eval) then 1 else 0)
  {
    CountTopics(CountTexts(t, r), TopicsOf(r, eval))
  }

  /** The counters after a list of records: each record is counted once,
      and each pair of complementary counters splits the records between
      them. */
  function Fold(recs: seq<Repo>, eval: Evaluator): (t: Tally)
    ensures t.total == |recs|
    ensures t.withTopics + t.withoutTopics == |recs|
  {
    if recs == [] then EmptyTally else Step(Fold(recs[..|recs| - 1], eval), recs[|recs| - 1], eval)
  }

  /** Some record among the first ten has a null description. */
  predicate NullSampled(recs: seq<Repo>) {
    exists i :: 0 <= i < Min(10, |recs|) && recs[i].description.Null?
  }

  /** Every record is counted once, with or without topics. */
  lemma {:induction false} FoldTopical(recs: seq<Repo>, eval: Evaluator)
    ensures var t := Fold(recs, eval);
            && t.total == |recs|
            && t.withTopics == CountIf(recs, Topical(eval))
            && t.withoutTopics == |recs| - t.withTopics
  {
    if recs != [] {
      FoldTopical(recs[..|recs| - 1], eval);
    }
  }

  /** The description counters split the records by `HasText`. */
  lemma {:induction false} FoldDescriptions(recs: seq<Repo>, eval: Evaluator)
    ensures var t := Fold(recs, eval);
            && t.withDescription == CountIf(recs, HasDescription)
            && t.emptyDescriptions == |recs| - t.withDescription
  {
    if recs != [] {
      FoldDescriptions(recs[..|recs| - 1], eval);
    }
  }

  /** The README counters split the records by `HasText`. */
  lemma {:induction false} FoldReadmes(recs: seq<Repo>, eval: Evaluator)
    ensures var t := Fold(recs, eval);
            && t.withReadme == CountIf(recs, HasReadme)
            && t.emptyReadmes == |recs| - t.withReadme
  {
    if recs != [] {
      FoldReadmes(recs[..|recs| - 1], eval);
    }
  }

  lemma {:induction false} FoldBoth(recs: seq<Repo>, eval: Evaluator)
    ensures Fold(recs, eval).withBoth == CountIf(recs, HasBoth)
  {
    if recs != [] {
      FoldBoth(recs[..|recs| - 1], eval);
    }
  }

  /** Topic occurrences add up the topic-set sizes and the unique topics
      are their union. */
  lemma {:induction false} FoldOccurrences(recs: seq<Repo>, eval: Evaluator)
    ensures var t := Fold(recs, eval);
            t.occurrences == SumTopics(recs, eval) && t.unique == UnionTopics(recs, eval)
  {
    if recs != [] {
      FoldOccurrences(recs[..|recs| - 1], eval);
    }
  }

  /** The frequency counter of each topic is the number of records whose
      topic set contains it. */
  lemma {:induction false} FoldFrequency(recs: seq<Repo>, eval: Evaluator, topic: string)
    ensures CountOf(Fold(recs, eval).frequency, topic) == CountIf(recs, Mentions(eval, topic))
  {
    if recs != [] {
      FoldFrequency(recs[..|recs| - 1], eval, topic);
    }
  }

  /** The by-size counter of each k is the number of records with exactly
      k topics, k at least one. */
  lemma {:induction false} FoldByCount(recs: seq<Repo>, eval: Evaluator, k: nat)
    ensures CountOf(Fold(recs, eval).byCount, k) == CountIf(recs, HasTopicCount(eval, k))
  {
    if recs != [] {
      FoldByCount(recs[..|recs| - 1], eval, k);
    }
  }

  /** The running maximum and minimum are those of the records' sizes. */
  lemma {:induction false} FoldExtremes(recs: seq<Repo>, eval: Evaluator)
    ensures var t := Fold(recs, eval);
            t.maxTopics == MaxTopics(recs, eval) && t.minTopics == MinTopics(recs, eval)
  {
    if recs != [] {
      FoldExtremes(recs[..|recs| - 1], eval);
    }
  }

  /** An entry of the ranking. */
  datatype TopicCount = TopicCount(topic: string, count: nat)

  /** Some member of a non-empty set of counted topics has the largest count. */
  lemma {:induction false} MaxExists(s: set<string>, freq: map<string, nat>)
    requires s != {} && s <= freq.Keys
    ensures exists t :: t in s && forall u :: u in s ==> freq[u] <= freq[t]
    decreases |s|
  {
    var x :| x in s;
    if s != {x} {
      MaxExists(s - {x}, freq);
      var t :| t in s - {x} && forall u :: u in s - {x} ==> freq[u] <= freq[t];
      if freq[x] > freq[t] {
        assert forall u :: u in s ==> freq[u] <= freq[x];
      } else {
        assert forall u :: u in s ==> freq[u] <= freq[t];
      }
    } else {
      assert forall u :: u in s ==> freq[u] <= freq[x];
    }
  }

  /** The topics of a ranking. */
  function Listed(top: seq<TopicCount>): set<string> {
    if top == [] then {} else Listed(top[..|top| - 1]) + {top[|top| - 1].topic}
  }

  lemma {:induction false} ListedIff(top: seq<TopicCount>, t: string)
    ensures t in Listed(top) <==> exists i :: 0 <= i < |top| && top[i].topic == t
  {
    if top != [] {
      var init := top[..|top| - 1];
      ListedIff(init, t);
      if t in Listed(init) {
        var i :| 0 <= i < |init| && init[i].topic == t;
        assert top[i].topic == t;
      }
      if t !in Listed(top) {
        forall i | 0 <= i < |top|
          ensures top[i].topic != t
        {
          if i < |init| {
            assert top[i] == init[i];
          }
        }
      }
    }
  }

  /** `top` ranks the `n` most frequent keys of `freq`: as many entries as
      allowed, each a distinct key with its count, counts never increasing,
      and no key left out counting more than the last entry. */
  ghost predicate IsMostCommon(top: seq<TopicCount>, freq: map<string, nat>, n: nat) {
    && |top| == Min(n, |freq.Keys|)
    && (forall i :: 0 <= i < |top| ==> top[i].topic in freq && top[i].count == freq[top[i].topic])
    && (forall i, j :: 0 <= i < j < |top| ==> top[i].topic != top[j].topic)
    && (forall i, j :: 0 <= i < j < |top| ==> top[i].count >= top[j].count)
    && (|top| < n ==> Listed(top) == freq.Keys)
    && (forall t :: t in freq && t !in Listed(top) && top != [] ==> freq[t] <= top[|top| - 1].count)
  }

  /** The topic of the largest count among `remaining`. */
  method PickMost(remaining: set<string>, freq: map<string, nat>) returns (t: string)
    requires remaining != {} && remaining <= freq.Keys
    ensures t in remaining && forall u :: u in remaining ==> freq[u] <= freq[t]
  {
    MaxExists(remaining, freq);
    t :| t in remaining && forall u :: u in remaining ==> freq[u] <= freq[t];
  }

  /** The `n` most frequent topics with their counts, most frequent first,
      as `Counter.most_common(n)` gives them. Ties are taken in an
      unspecified order. */
  method MostCommon(freq: map<string, nat>, n: nat) returns (top: seq<TopicCount>)
    ensures IsMostCommon(top, freq, n)
  {
    var remaining := freq.Keys;
    top := [];
    while |top| < n && remaining != {}
      invariant |top| <= n
      invariant Ranking(top, remaining, freq)
      decreases |remaining|
    {
      var t := PickMost(remaining, freq);
      RankingStep(top, remaining, freq, t);
      top := top + [TopicCount(t, freq[t])];
      remaining := remaining - {t};
    }
    RankingDone(top, remaining, freq, n);
  }

  /** The ranking so far and the keys not yet ranked. */
  ghost predicate Ranking(top: seq<TopicCount>, remaining: set<string>, freq: map<string, nat>) {
    && remaining == freq.Keys - Listed(top)
    && |remaining| == |freq.Keys| - |top|
    && (forall i :: 0 <= i < |top| ==> top[i].topic in freq && top[i].count == freq[top[i].topic])
    && (forall i, j :: 0 <= i < j < |top| ==> top[i].topic != top[j].topic)
    && (forall i, j :: 0 <= i < j < |top| ==> top[i].count >= top[j].count)
    && (top != [] ==> forall u :: u in remaining ==> freq[u] <= top[|top| - 1].count)
  }

  /** Ranking a most frequent remaining key next keeps the ranking. */
  lemma RankingStep(top: seq<TopicCount>, remaining: set<string>, freq: map<string, nat>, t: string)
    requires Ranking(top, remaining, freq)
    requires t in remaining && forall u :: u in remaining ==> freq[u] <= freq[t]
    ensures Ranking(top + [TopicCount(t, freq[t])], remaining - {t}, freq)
  {
    RankingStepKeys(top, remaining, freq, t);
    RankingStepCounts(top, remaining, freq, t);
    RankingStepOrder(top, remaining, freq, t);
  }

  /** The key ranked next leaves the remaining keys. */
  lemma RankingStepKeys(top: seq<TopicCount>, remaining: set<string>, freq: map<string, nat>, t: string)
    requires remaining == freq.Keys - Listed(top) && |remaining| == |freq.Keys| - |top|
    requires t in remaining
    ensures var next := top + [TopicCount(t, freq[t])];
            remaining - {t} == freq.Keys - Listed(next) && |remaining - {t}| == |freq.Keys| - |next|
  {
    var next := top + [TopicCount(t, freq[t])];
    assert next[..|next| - 1] == top;
  }

  /** The entry ranked next carries its key's count. */
  lemma RankingStepCounts(top: seq<TopicCount>, remaining: set<string>, freq: map<string, nat>, t: string)
    requires forall i :: 0 <= i < |top| ==> top[i].topic in freq && top[i].count == freq[top[i].topic]
    requires t in remaining && remaining <= freq.Keys
    ensures var next := top + [TopicCount(t, freq[t])];
            forall i :: 0 <= i < |next| ==> next[i].topic in freq && next[i].count == freq[next[i].topic]
  {
    var next := top + [TopicCount(t, freq[t])];
    forall i | 0 <= i < |next|
      ensures next[i].topic in freq && next[i].count == freq[next[i].topic]
    {
      if i < |top| {
        assert next[i] == top[i];
      }
    }
  }

  /** The key ranked next is new and counts no more than those before it. */
  lemma RankingStepOrder(top: seq<TopicCount>, remaining: set<string>, freq: map<string, nat>, t: string)
    requires Ranking(top, remaining, freq)
    requires t in remaining && forall u :: u in remaining ==> freq[u] <= freq[t]
    ensures var next := top + [TopicCount(t, freq[t])];
            forall i, j :: 0 <= i < j < |next| ==> next[i].topic != next[j].topic && next[i].count >= next[j].count
  {
    var next := top + [TopicCount(t, freq[t])];
    ListedIff(top, t);
    forall i, j | 0 <= i < j < |next|
      ensures next[i].topic != next[j].topic && next[i].count >= next[j].count
    {
      if j == |top| {
        if i < |top| - 1 {
          assert top[i].count >= top[|top| - 1].count;
        }
      } else {
        assert next[i] == top[i] && next[j] == top[j];
      }
    }
  }

  /** A ranking that stops when n entries are taken or no key remains is
      the ranking of the n most frequent keys. */
  lemma RankingDone(top: seq<TopicCount>, remaining: set<string>, freq: map<string, nat>, n: nat)
    requires |top| <= n && Ranking(top, remaining, freq)
    requires |top| >= n || remaining == {}
    ensures IsMostCommon(top, freq, n)
  {
    forall u | u in Listed(top)
      ensures u in freq
    {
      ListedIff(top, u);
    }
  }

  /** What the counters mean, each stated against its reference
      definition: every record counted once, the text counters splitting
      the records, topic occurrences, unique topics, per-topic and per-size
      counters, and the extreme sizes. */
  ghost predicate Describes(t: Tally, recs: seq<Repo>, eval: Evaluator) {
    && t.total == |recs|
    && t.withTopics == CountIf(recs, Topical(eval)) && t.withTopics + t.withoutTopics == t.total
    && t.withDescription == CountIf(recs, HasDescription) && t.withDescription + t.emptyDescriptions == t.total
    && t.withReadme == CountIf(recs, HasReadme) && t.withReadme + t.emptyReadmes == t.total
    && t.withBoth == CountIf(recs, HasBoth)
    && t.occurrences == SumTopics(recs, eval) && t.unique == UnionTopics(recs, eval)
    && (forall topic :: CountOf(t.frequency, topic) == CountIf(recs, Mentions(eval, topic)))
    && (forall k :: CountOf(t.byCount, k) == CountIf(recs, HasTopicCount(eval, k)))
    && t.maxTopics == MaxTopics(recs, eval) && t.minTopics == MinTopics(recs, eval)
    && (t.minTopics.None? <==> t.withTopics == 0)
    && (t.withTopics == 0 ==> t.maxTopics == 0)
    && (t.minTopics.Some? ==> 1 <= t.minTopics.value <= t.maxTopics)
  }

  /** The pass computes what each counter is meant to hold. */
  lemma FoldDescribes(recs: seq<Repo>, eval: Evaluator)
    ensures Describes(Fold(recs, eval), recs, eval)
  {
    var t := Fold(recs, eval);
    FoldTopical(recs, eval);
    FoldDescriptions(recs, eval);
    FoldReadmes(recs, eval);
    FoldBoth(recs, eval);
    FoldOccurrences(recs, eval);
    FoldExtremes(recs, eval);
    MaxMinTopics(recs, eval);
    forall topic
      ensures CountOf(t.frequency, topic) == CountIf(recs, Mentions(eval, topic))
    {
      FoldFrequency(recs, eval, topic);
    }
    forall k
      ensures CountOf(t.byCount, k) == CountIf(recs, HasTopicCount(eval, k))
    {
      FoldByCount(recs, eval, k);
    }
  }

  lemma FoldSnoc(recs: seq<Repo>, eval: Evaluator, i: nat)
    requires i < |recs|
    ensures Fold(recs[..i + 1], eval) == Step(Fold(recs[..i], eval), recs[i], eval)
  {
    assert recs[..i + 1][..i] == recs[..i];
  }

  /** Samples the records are meant to have while the first `i` records
      have been seen: one per record up to ten, in record order. */
  ghost predicate SamplesOf(samples: seq<Sample>, recs: seq<Repo>, i: nat, eval: Evaluator, iterate: Iteration) {
    && i <= |recs|
    && |samples| == Min(10, i)
    && forall j :: 0 <= j < |samples| ==> SampleOf(recs[j], eval, iterate) == Some(samples[j])
  }

  /** When iteration lists the set, a sample shows at most five topics, as
      many as the record has when it has fewer, and every one of them is a
      topic of that record. */
  lemma SampleTopics(r: Repo, eval: Evaluator, iterate: Iteration)
    requires Lists(iterate) && !r.description.Null?
    ensures var s := SampleOf(r, eval, iterate);
            && s.Some?
            && |s.value.topics| == Min(5, s.value.topicsCount)
            && forall x :: x in s.value.topics ==> x in TopicsOf(r, eval)
  {
    var topics := TopicsOf(r, eval);
    var s := SampleOf(r, eval, iterate);
    forall x | x in s.value.topics
      ensures x in topics
    {
      assert x in iterate(topics);
    }
  }

  /** Every sample taken so far shows only topics of its own record, at
      most five of them. */
  lemma SamplesShowOwnTopics(samples: seq<Sample>, recs: seq<Repo>, i: nat, eval: Evaluator, iterate: Iteration, j: nat)
    requires Lists(iterate) && SamplesOf(samples, recs, i, eval, iterate) && j < |samples|
    ensures |samples[j].topics| == Min(5, samples[j].topicsCount)
    ensures forall x :: x in samples[j].topics ==> x in TopicsOf(recs[j], eval)
  {
    SampleTopics(recs[j], eval, iterate);
  }

  /** The sample step for record `i`: append its sample while fewer than
      ten were taken, failing on a null description. */
  method TakeSample(samples: seq<Sample>, recs: seq<Repo>, i: nat, eval: Evaluator, iterate: Iteration) returns (next: Option<seq<Sample>>)
    requires i < |recs| && SamplesOf(samples, recs, i, eval, iterate)
    ensures next.None? <==> i < 10 && recs[i].description.Null?
    ensures next.Some? ==> SamplesOf(next.value, recs, i + 1, eval, iterate)
  {
    if |samples| < 10 {
      var s := SampleOf(recs[i], eval, iterate);
      if s.None? {
        return None;
      }
      return Some(samples + [s.value]);
    }
    return Some(samples);
  }

  /** What the analysis reports: the counters, the samples of the first
      ten records, the minimum read as 0 when no record has topics, the
      number of unique topics and the ranking. */
  datatype Report = Report(tally: Tally, samples: seq<Sample>, minTopics: nat, uniqueCount: nat, topTopics: seq<TopicCount>)

  datatype Analyzed = Analyzed(report: Report) | AnalysisFailed(error: Exn)

  /** The end of the loop over the records: the counters and samples, or
      the exception a null description raised. */
  datatype Pass = Passed(tally: Tally, samples: seq<Sample>) | Crashed(error: Exn)

  /** The loop over the records: each updates the counters, and each of the
      first ten is sampled, which raises on a null description. */
  method Loop(recs: seq<Repo>, eval: Evaluator, iterate: Iteration) returns (p: Pass)
    ensures p.Crashed? <==> NullSampled(recs)
    ensures p.Crashed? ==> p.error == NoLength
    ensures p.Passed? ==> p.tally == Fold(recs, eval) && SamplesOf(p.samples, recs, |recs|, eval, iterate)
  {
    var t := EmptyTally;
    var samples := [];
    var i := 0;
    while i < |recs|
      invariant 0 <= i <= |recs|
      invariant t == Fold(recs[..i], eval)
      invariant SamplesOf(samples, recs, i, eval, iterate)
      invariant forall j :: 0 <= j < Min(10, i) ==> !recs[j].description.Null?
    {
      t := Step(t, recs[i], eval);
      assert t == Fold(recs[..i + 1], eval) by { FoldSnoc(recs, eval, i); }
      var next := TakeSample(samples, recs, i, eval, iterate);
      if next.None? {
        assert 0 <= i < Min(10, |recs|) && recs[i].description.Null?;
        return Crashed(NoLength);
      }
      samples := next.value;
      i := i + 1;
    }
    assert recs[..|recs|] == recs;
    return Passed(t, samples);
  }

  /** The analysis of a list of records: the loop, then the derived
      figures (the unique-topic count, the minimum read as 0 when still
      infinite) and the ranking of the thirty most frequent topics. */
  method AnalyzeDataset(recs: seq<Repo>, eval: Evaluator, iterate: Iteration) returns (r: Analyzed)
    ensures r.AnalysisFailed? <==> NullSampled(recs)
    ensures r.AnalysisFailed? ==> r.error == NoLength
    ensures r.Analyzed? ==> Describes(r.report.tally, recs, eval)
    ensures r.Analyzed? ==> r.report.uniqueCount == |r.report.tally.unique|
    ensures r.Analyzed? && r.report.tally.withTopics == 0 ==> r.report.minTopics == 0
    ensures r.Analyzed? && r.report.tally.withTopics > 0 ==> 1 <= r.report.minTopics <= r.report.tally.maxTopics
    ensures r.Analyzed? ==> SamplesOf(r.report.samples, recs, |recs|, eval, iterate)
    ensures r.Analyzed? ==> IsMostCommon(r.report.topTopics, r.report.tally.frequency, 30)
  {
    var p := Loop(recs, eval, iterate);
    match p
    case Crashed(e) =>
      r := AnalysisFailed(e);
    case Passed(t, samples) =>
      FoldDescribes(recs, eval);
      var top := MostCommon(t.frequency, 30);
      var least := if t.minTopics.None? then 0 else t.minTopics.value;
      r := Analyzed(Report(t, samples, least, |t.unique|, top));
  }
}

=== FILE: common.dfy ===
/** Shapes shared by every variant of the metadata collector: the JSON values
    the remote API returns, the oracle that stands in for the network, the
    abstract README decoder, and the decimal rendering used in reason tags. */
module Common {

  datatype Option<+T> = None | Some(value: T)

  /** A JSON value as the response parser produces it (numbers are integers). */
  datatype Json =
    | JNull
    | JBool(b: bool)
    | JInt(i: int)
    | JStr(s: string)
    | JArr(items: seq<Json>)
    | JObj(fields: map<string, Json>)

  /** A decoded JSON object; the collectors probe it by key. */
  type Obj = map<string, Json>

  /** Dictionary lookup with a default for a missing key. */
  function GetOr(d: Obj, key: string, default: Json): Json {
    if key in d then d[key] else default
  }

  /** One row of the ranking CSV; `repoId` is the identity key. */
  datatype Row = Row(repoId: string, repoName: string, totalOpenrank: string)

  /** The three repository fields kept from the metadata endpoint. */
  datatype RepoMeta = RepoMeta(description: Json, homepageUrl: Json, topics: Json)

  /** What a record carries when the metadata could not be fetched. */
  const NullMeta := RepoMeta(JNull, JNull, JArr([]))

  /** Metadata read from a payload: absent description and homepage read as
      null, an absent topic list as the empty list. */
  function MetaOf(data: Obj): (m: RepoMeta)
    ensures "description" !in data ==> m.description == JNull
    ensures "homepage" !in data ==> m.homepageUrl == JNull
    ensures "topics" !in data ==> m.topics == JArr([])
    ensures "topics" in data ==> m.topics == data["topics"]
  {
    RepoMeta(GetOr(data, "description", JNull), GetOr(data, "homepage", JNull), GetOr(data, "topics", JArr([])))
  }

  /** An exception: its class name and its message. */
  datatype Exn = Exn(kind: string, message: string)

  /** What integer conversion makes of a header text: a value, or the exception it raises. */
  datatype IntParse = Parsed(value: int) | Rejected(error: Exn)

  /** The rate-limit reset header: its raw text and its integer reading. */
  datatype ResetHeader = ResetHeader(text: string, asInt: IntParse)

  /** A response body: a JSON object, or text whose parsing raises. */
  datatype Body = JsonObject(fields: Obj) | NotJson(error: Exn)

  /** The answer to one HTTP request: the transport raised, or a reply came
      back with a status, the two rate-limit headers, a body, and the clock
      reading (whole seconds) taken while handling it. */
  datatype Attempt =
    | Raised(error: Exn)
    | Reply(status: int, remaining: Option<string>, reset: Option<ResetHeader>, body: Body, now: int)

  /** The network: the i-th request issued during a run receives net(i). */
  type Net = nat -> Attempt

  /** The order in which a pool of workers finishes a batch of rows, as a
      function of the batch's first request index and its rows. */
  type Order = (nat, seq<Row>) -> seq<Row>

  /** Every batch finishes each of its rows exactly once. */
  ghost predicate Permutes(order: Order) {
    forall at: nat, rows: seq<Row> :: multiset(order(at, rows)) == multiset(rows)
  }

  /** The pause every collector makes after each repository, in
      milliseconds (0.1 s). */
  const MinIntervalMs: nat := 100

  /** Base64 decoding followed by lenient UTF-8 decoding of a README's
      `content` field: the text, or the class of the exception raised. */
  datatype Decoding = Decoded(text: string) | Undecodable(kind: string)
  type Decoder = Json -> Decoding

  function Pow2(n: nat): (p: nat)
    ensures p >= 1
  {
    if n == 0 then 1 else 2 * Pow2(n - 1)
  }

  function Max(a: int, b: int): int {
    if a >= b then a else b
  }

  function Min(a: int, b: int): int {
    if a <= b then a else b
  }

  function DigitChar(d: nat): (c: char)
    requires d < 10
    ensures '0' <= c <= '9'
  {
    "0123456789"[d]
  }

  /** Decimal rendering of a natural number, most significant digit first. */
  function NatToString(n: nat): (s: string)
    ensures |s| >= 1
    ensures forall i :: 0 <= i < |s| ==> '0' <= s[i] <= '9'
  {
    if n < 10 then [DigitChar(n)] else NatToString(n / 10) + [DigitChar(n % 10)]
  }

  /** Decimal rendering of an integer, with a leading minus sign when negative. */
  function IntToString(i: int): (s: string)
    ensures |s| >= 1
  {
    if i < 0 then "-" + NatToString(-i) else NatToString(i)
  }
}

=== FILE: dataset.dfy ===
/** The collected dataset as the statistics script reads it: records whose
    fields may be absent, null or text, the topic-list parser, the loader,
    and a reference definition of every statistic, one at a time. */
module Dataset {
  import opened Common

  /** A record field: missing from the record, JSON null, or a string. */
  datatype Field = Absent | Null | Str(s: string)

  /** One record of the dataset file, reduced to the four fields read. */
  datatype Repo = Repo(description: Field, readme: Field, topics: Field, name: Field)

  /** The characters Python's `str.strip` removes (those for which
      `str.isspace` holds). */
  predicate IsSpace(c: char) {
    var n := c as int;
    || (0x09 <= n <= 0x0D) || (0x1C <= n <= 0x20) || n == 0x85 || n == 0xA0
    || n == 0x1680 || (0x2000 <= n <= 0x200A) || n == 0x2028 || n == 0x2029
    || n == 0x202F || n == 0x205F || n == 0x3000
  }

  function StripLeft(s: string): (r: string)
    ensures |r| <= |s| && r == s[|s| - |r|..]
    ensures r != [] ==> !IsSpace(r[0])
    ensures forall i :: 0 <= i < |s| - |r| ==> IsSpace(s[i])
  {
    if s != [] && IsSpace(s[0]) then
      var r := StripLeft(s[1..]);
      assert s[1..][|s| - 1 - |r|..] == s[|s| - |r|..];
      assert forall i :: 1 <= i < |s| - |r| ==> s[i] == s[1..][i - 1];
      r
    else s
  }

  function StripRight(s: string): (r: string)
    ensures |r| <= |s| && r == s[..|r|]
    ensures r != [] ==> !IsSpace(r[|r| - 1])
    ensures forall i :: |r| <= i < |s| ==> IsSpace(s[i])
  {
    if s != [] && IsSpace(s[|s| - 1]) then
      var r := StripRight(s[..|s| - 1]);
      assert s[..|s| - 1][..|r|] == s[..|r|];
      assert forall i :: |r| <= i < |s| - 1 ==> s[i] == s[..|s| - 1][i];
      r
    else s
  }

  /** Python's `str.strip()` without arguments. */
  function Strip(s: string): string {
    StripRight(StripLeft(s))
  }

  /** Stripping leaves something exactly when some character is not
      whitespace. */
  lemma StripEmptyIff(s: string)
    ensures Strip(s) != [] <==> exists i :: 0 <= i < |s| && !IsSpace(s[i])
  {
    var l := StripLeft(s);
    if Strip(s) != [] {
      var k := |s| - |l|;
      assert !IsSpace(s[k]);
    } else {
      assert l == [];
    }
  }

  /** The truth value of `field and field.strip()`: a string with some
      non-whitespace character. */
  predicate HasText(f: Field) {
    f.Str? && f.s != [] && Strip(f.s) != []
  }

  /** A text field counts as present exactly when it holds a character
      other than whitespace; absent, null, empty and blank fields do not. */
  lemma HasTextIff(f: Field)
    ensures HasText(f) <==> f.Str? && exists i :: 0 <= i < |f.s| && !IsSpace(f.s[i])
  {
    if f.Str? {
      StripEmptyIff(f.s);
    }
  }

  /** What `ast.literal_eval` makes of a topic string: a set literal, a
      list literal, any other literal (kept as its `str()` rendering), or
      a SyntaxError/ValueError. Topic values are strings. */
  datatype Literal = SetLit(members: set<string>) | ListLit(items: seq<string>) | OtherLit(text: string) | Unparsable

  type Evaluator = string -> Literal

  function Elements(items: seq<string>): (s: set<string>)
    ensures forall x :: x in s <==> x in items
  {
    if items == [] then {} else {items[0]} + Elements(items[1..])
  }

  /** The topic set of a topic field: empty for an absent, null or empty
      field and for an unparsable one; a set literal as is; the elements of
      a list literal; any other literal as the one-element set of its
      rendering. */
  function ParseTopics(f: Field, eval: Evaluator): (t: set<string>)
    ensures !f.Str? || f.s == "" ==> t == {}
    ensures f.Str? && f.s != "" ==>
              match eval(f.s)
              case SetLit(m) => t == m
              case ListLit(items) => forall x :: x in t <==> x in items
              case OtherLit(text) => t == {text}
              case Unparsable => t == {}
  {
    if !f.Str? || f.s == "" then {}
    else
      match eval(f.s)
      case SetLit(m) => m
      case ListLit(items) => Elements(items)
      case OtherLit(text) => {text}
      case Unparsable => {}
  }

  function TopicsOf(r: Repo, eval: Evaluator): set<string> {
    ParseTopics(r.topics, eval)
  }

  /** The dataset file: one whose loading raised, or a JSON object whose
      values are lists of records, in file order. */
  datatype Document = Unreadable | Partitions(parts: seq<seq<Repo>>)

  /** All partitions concatenated in order. */
  function Flatten(parts: seq<seq<Repo>>): (r: seq<Repo>)
    ensures forall x :: x in r <==> exists i :: 0 <= i < |parts| && x in parts[i]
    decreases |parts|
  {
    if parts == [] then []
    else
      var rest := Flatten(parts[1..]);
      forall x | x in parts[0] + rest
        ensures exists i :: 0 <= i < |parts| && x in parts[i]
      {
        if x !in parts[0] {
          var j :| 0 <= j < |parts[1..]| && x in parts[1..][j];
          assert x in parts[j + 1];
        }
      }
      forall x, i | 0 <= i < |parts| && x in parts[i]
        ensures x in parts[0] + rest
      {
        if i > 0 {
          assert x in parts[1..][i - 1];
        }
      }
      parts[0] + rest
  }

  /** Flattening distributes over the concatenation of partition lists. */
  lemma {:induction false} FlattenAppend(a: seq<seq<Repo>>, b: seq<seq<Repo>>)
    ensures Flatten(a + b) == Flatten(a) + Flatten(b)
    decreases |a|
  {
    if a != [] {
      assert (a + b)[0] == a[0];
      assert (a + b)[1..] == a[1..] + b;
      FlattenAppend(a[1..], b);
    } else {
      assert a + b == b;
    }
  }

  /** A single partition flattens to itself. */
  lemma FlattenOne(p: seq<Repo>)
    ensures Flatten([p]) == p
  {
    assert [p][1..] == [];
  }

  /** The flattened records number the sum of the partitions' sizes. */
  function TotalSize(parts: seq<seq<Repo>>): nat
    decreases |parts|
  {
    if parts == [] then 0 else |parts[0]| + TotalSize(parts[1..])
  }

  lemma {:induction false} FlattenSize(parts: seq<seq<Repo>>)
    ensures |Flatten(parts)| == TotalSize(parts)
    decreases |parts|
  {
    if parts != [] {
      FlattenSize(parts[1..]);
    }
  }

  /** The length Python's `s[:limit]` keeps of a sequence of length n: the
      first `limit` elements, or for a negative limit all but the last
      `-limit`. */
  function SliceLength(n: nat, limit: int): (k: nat)
    ensures k <= n
    ensures limit >= 0 ==> k == Min(limit, n)
    ensures limit < 0 ==> k == Max(n + limit, 0)
  {
    if limit >= 0 then Min(limit, n) else Max(n + limit, 0)
  }

  /** The loader: every partition's records in order, cut to `limit` when
      one is given; any error gives no records. */
  function LoadData(doc: Document, limit: Option<int>): (r: seq<Repo>)
    ensures doc.Unreadable? ==> r == []
    ensures doc.Partitions? ==> |r| <= |Flatten(doc.parts)| && r == Flatten(doc.parts)[..|r|]
    ensures doc.Partitions? && limit.None? ==> r == Flatten(doc.parts)
    ensures doc.Partitions? && limit.Some? ==> |r| == SliceLength(|Flatten(doc.parts)|, limit.value)
  {
    match doc
    case Unreadable => []
    case Partitions(parts) =>
      var all := Flatten(parts);
      match limit
      case None => all
      case Some(n) => all[..SliceLength(|all|, n)]
  }

  /** Reference definitions of the statistics, each on its own. */

  /** The number of records satisfying `p`. */
  function CountIf(recs: seq<Repo>, p: Repo -> bool): (n: nat)
    ensures n <= |recs|
  {
    if recs == [] then 0
    else CountIf(recs[..|recs| - 1], p) + (if p(recs[|recs| - 1]) then 1 else 0)
  }

  function HasDescription(r: Repo): bool { HasText(r.description) }
  function HasReadme(r: Repo): bool { HasText(r.readme) }
  function HasBoth(r: Repo): bool { HasDescription(r) && HasReadme(r) }

  /** Records with at least one topic. */
  function Topical(eval: Evaluator): Repo -> bool {
    r => TopicsOf(r, eval) != {}
  }

  /** Records whose topic set contains `t`. */
  function Mentions(eval: Evaluator, t: string): Repo -> bool {
    r => t in TopicsOf(r, eval)
  }

  /** Records with exactly k topics, k at least one. */
  function HasTopicCount(eval: Evaluator, k: nat): Repo -> bool {
    r => 0 < k && |TopicsOf(r, eval)| == k
  }

  /** The sum of the records' topic-set sizes. */
  function SumTopics(recs: seq<Repo>, eval: Evaluator): nat {
    if recs == [] then 0 else SumTopics(recs[..|recs| - 1], eval) + |TopicsOf(recs[|recs| - 1], eval)|
  }

  /** Every topic of some record. */
  function UnionTopics(recs: seq<Repo>, eval: Evaluator): set<string> {
    if recs == [] then {} else UnionTopics(recs[..|recs| - 1], eval) + TopicsOf(recs[|recs| - 1], eval)
  }

  /** The largest topic-set size, 0 when there are no records. */
  function MaxTopics(recs: seq<Repo>, eval: Evaluator): nat {
    if recs == [] then 0 else Max(MaxTopics(recs[..|recs| - 1], eval), |TopicsOf(recs[|recs| - 1], eval)|)
  }

  /** The smallest non-zero topic-set size, if any record has topics. */
  function MinTopics(recs: seq<Repo>, eval: Evaluator): Option<nat> {
    if recs == [] then None
    else
      var rest := MinTopics(recs[..|recs| - 1], eval);
      var k := |TopicsOf(recs[|recs| - 1], eval)|;
      if k == 0 then rest else if rest.None? then Some(k) else Some(Min(rest.value, k))
  }

  /** Counting is monotone in the predicate. */
  lemma {:induction false} CountIfMono(recs: seq<Repo>, p: Repo -> bool, q: Repo -> bool)
    requires forall i :: 0 <= i < |recs| && p(recs[i]) ==> q(recs[i])
    ensures CountIf(recs, p) <= CountIf(recs, q)
  {
    if recs != [] {
      var init := recs[..|recs| - 1];
      assert forall i :: 0 <= i < |init| ==> init[i] == recs[i];
      CountIfMono(init, p, q);
    }
  }

  /** Records satisfying a predicate and the others make up all records. */
  lemma {:induction false} CountIfComplement(recs: seq<Repo>, p: Repo -> bool, q: Repo -> bool)
    requires forall r :: q(r) == !p(r)
    ensures CountIf(recs, p) + CountIf(recs, q) == |recs|
  {
    if recs != [] {
      CountIfComplement(recs[..|recs| - 1], p, q);
    }
  }

  /** Records with both a description and a README number at most as many
      as those with either one. */
  lemma BothBounded(recs: seq<Repo>)
    ensures CountIf(recs, HasBoth) <= Min(CountIf(recs, HasDescription), CountIf(recs, HasReadme))
  {
    CountIfMono(recs, HasBoth, HasDescription);
    CountIfMono(recs, HasBoth, HasReadme);
  }

  /** A topic occurs in no more records than have topics at all. */
  lemma FrequencyBounded(recs: seq<Repo>, eval: Evaluator, t: string)
    ensures CountIf(recs, Mentions(eval, t)) <= CountIf(recs, Topical(eval))
  {
    CountIfMono(recs, Mentions(eval, t), Topical(eval));
  }

  /** There are no more distinct topics than topic occurrences. */
  lemma {:induction false} UniqueBounded(recs: seq<Repo>, eval: Evaluator)
    ensures |UnionTopics(recs, eval)| <= SumTopics(recs, eval)
  {
    if recs != [] {
      var init := recs[..|recs| - 1];
      UniqueBounded(init, eval);
      UnionCard(UnionTopics(init, eval), TopicsOf(recs[|recs| - 1], eval));
    }
  }

  lemma {:induction false} UnionCard(a: set<string>, b: set<string>)
    ensures |a + b| <= |a| + |b|
    decreases |b|
  {
    if b != {} {
      var x :| x in b;
      UnionCard(a, b - {x});
      assert a + b == (a + (b - {x})) + {x};
    }
  }

  /** The number of records with 1, 2, ..., n topics. */
  function SumByCount(recs: seq<Repo>, eval: Evaluator, n: nat): nat {
    if n == 0 then 0 else SumByCount(recs, eval, n - 1) + CountIf(recs, HasTopicCount(eval, n))
  }

  /** Adding one record adds one to the records-by-size sum when its size
      is between 1 and n, and nothing otherwise. */
  lemma {:induction false} SumByCountStep(recs: seq<Repo>, eval: Evaluator, n: nat)
    requires recs != []
    ensures var k := |TopicsOf(recs[|recs| - 1], eval)|;
            SumByCount(recs, eval, n) == SumByCount(recs[..|recs| - 1], eval, n) + (if 1 <= k <= n then 1 else 0)
  {
    if n > 0 {
      SumByCountStep(recs, eval, n - 1);
    }
  }

  lemma {:induction false} MaxTopicsBound(recs: seq<Repo>, eval: Evaluator, n: nat)
    requires recs != [] && MaxTopics(recs, eval) <= n
    ensures MaxTopics(recs[..|recs| - 1], eval) <= n && |TopicsOf(recs[|recs| - 1], eval)| <= n
  {
  }

  /** Grouping the records with topics by their number of topics, up to any
      bound at least the largest size, accounts for each of them once. */
  lemma {:induction false} ByCountSums(recs: seq<Repo>, eval: Evaluator, n: nat)
    requires MaxTopics(recs, eval) <= n
    ensures SumByCount(recs, eval, n) == CountIf(recs, Topical(eval))
  {
    if recs == [] {
      ZeroByCount(eval, n);
    } else {
      MaxTopicsBound(recs, eval, n);
      ByCountSums(recs[..|recs| - 1], eval, n);
      SumByCountStep(recs, eval, n);
    }
  }

  lemma {:induction false} ZeroByCount(eval: Evaluator, n: nat)
    ensures SumByCount([], eval, n) == 0
  {
    if n > 0 {
      ZeroByCount(eval, n - 1);
    }
  }

  /** Without records with topics the minimum is undefined and the maximum
      is 0; with some, the maximum is at least the minimum, which is at
      least one. */
  lemma {:induction false} MaxMinTopics(recs: seq<Repo>, eval: Evaluator)
    ensures CountIf(recs, Topical(eval)) == 0 <==> MinTopics(recs, eval).None?
    ensures CountIf(recs, Topical(eval)) == 0 ==> MaxTopics(recs, eval) == 0
    ensures MinTopics(recs, eval).Some? ==> 1 <= MinTopics(recs, eval).value <= MaxTopics(recs, eval)
  {
    if recs != [] {
      MaxMinTopics(recs[..|recs| - 1], eval);
    }
  }
}

=== FILE: fetcher.dfy ===
/** The remote fetcher of the resumable collector: one call maps the answers
    of up to RetryLimit+1 requests to a JSON object, which is either the
    payload of a 200 reply or a one-key dictionary `{"_error": reason}`. */
module Fetcher {
  import opened Common
  import opened Retry

  const NotFound: string := "not_found"

  /** The dictionary the fetcher returns in place of a payload on failure. */
  function ErrorDict(reason: string): (d: Obj)
    ensures d.Keys == {"_error"} && d["_error"] == JStr(reason)
  {
    map["_error" := JStr(reason)]
  }

  function ExceptionReason(e: Exn): string {
    "exception_" + e.kind + ": " + e.message
  }

  function RateLimitReason(status: int): string {
    "rate_limit_or_forbidden_" + IntToString(status)
  }

  function StatusReason(status: int): string {
    "status_" + IntToString(status)
  }

  /** The wait before giving up on an exhausted quota: until five seconds
      past the reset time, and never less than ten seconds. */
  function QuotaPause(reset: int, now: int): (d: int)
    ensures d >= 10 && d >= reset - now + 5
    ensures d == 10 || d == reset - now + 5
  {
    Max(reset - now + 5, 10)
  }

  predicate IsRateLimitStatus(status: int) {
    status == 403 || status == 429
  }

  /** The remaining-quota header reads "0" and a non-empty reset header is present. */
  predicate QuotaExhausted(a: Attempt) {
    a.Reply? && a.remaining == Some("0") && a.reset.Some? && a.reset.value.text != ""
  }

  /** A 403 or 429 on an exhausted quota whose reset header converts to an integer. */
  predicate QuotaPauses(a: Attempt) {
    QuotaExhausted(a) && IsRateLimitStatus(a.status) && a.reset.value.asInt.Parsed?
  }

  /** The answers the fetcher retries: everything raised inside the call (the
      transport, parsing a 200 body, converting the reset header) and a 403
      or 429 whose quota is not exhausted. */
  predicate Retries(a: Attempt) {
    || a.Raised?
    || (a.status == 200 && a.body.NotJson?)
    || (IsRateLimitStatus(a.status) && !QuotaPauses(a))
  }

  /** The sleep an answer causes when it ends a call: the quota pause of an
      exhausted rate limit, and nothing otherwise. */
  function QuotaSleep(a: Attempt): Option<int> {
    if QuotaPauses(a) then Some(1000 * QuotaPause(a.reset.value.asInt.value, a.now)) else None
  }

  function Judge(a: Attempt): Verdict {
    if Retries(a) then Retried else Final(QuotaSleep(a))
  }

  /** Only a final answer can carry a pause. */
  lemma JudgePause(a: Attempt)
    ensures LastPause(Judge(a)) == PauseList(QuotaSleep(a))
  {
  }

  /** What the fetcher returns when answer `a` is the last one it examines. */
  function AnswerValue(a: Attempt): Obj {
    match a
    case Raised(e) => ErrorDict(ExceptionReason(e))
    case Reply(status, remaining, reset, body, now) =>
      if status == 200 then
        match body
        case JsonObject(o) => o
        case NotJson(e) => ErrorDict(ExceptionReason(e))
      else if status == 404 then
        ErrorDict(NotFound)
      else if IsRateLimitStatus(status) then
        if QuotaExhausted(a) && reset.value.asInt.Rejected? then
          ErrorDict(ExceptionReason(reset.value.asInt.error))
        else
          ErrorDict(RateLimitReason(status))
      else
        ErrorDict(StatusReason(status))
  }

  /** The end of one call: its value, the number of requests it issued, and
      the sleeps it made, in order, in milliseconds. */
  datatype Fetched = Fetched(value: Obj, attempts: nat, sleeps: seq<int>)

  /** One call of the fetcher, issuing its first request at `at`. */
  function FetchJson(net: Net, at: nat): (r: Fetched)
    ensures 1 <= r.attempts <= MaxAttempts
  {
    var run := Calling(Judge, net, at);
    Fetched(AnswerValue(LastAnswer(Judge, net, at)), run.attempts, run.sleeps)
  }

  /** Every answer of a call but the last is one the fetcher retries, and a
      call ends on a retried answer only when no retry is left. */
  lemma FetchRetries(net: Net, at: nat)
    ensures var r := FetchJson(net, at);
      && (forall i :: at <= i < at + r.attempts - 1 ==> Retries(net(i)))
      && (Retries(LastAnswer(Judge, net, at)) ==> r.attempts == MaxAttempts)
  {
    var judge := Judge;
    CallingRetried(judge, net, at);
    var n := Calling(judge, net, at).attempts;
    forall i | at <= i < at + n - 1
      ensures Retries(net(i))
    {
      assert judge(net(i)).Retried?;
    }
    assert judge(LastAnswer(judge, net, at)) == Judge(LastAnswer(judge, net, at));
  }

  /** The sleeps of one call: 2^r seconds before retry r+1, then the quota
      pause if the call ended on an exhausted quota. */
  lemma FetchSleeps(net: Net, at: nat)
    ensures var r := FetchJson(net, at);
            r.sleeps == Backoff(0, r.attempts - 1) + PauseList(QuotaSleep(LastAnswer(Judge, net, at)))
  {
    var judge := Judge;
    CallingSleeps(judge, net, at);
    JudgePause(LastAnswer(judge, net, at));
  }

  /** A final answer after k retried ones ends the call at attempt k: its
      value is what that answer gives, after the backoff sleeps of the k
      retries and the answer's own quota pause. */
  lemma FetchSettlesAt(net: Net, at: nat, k: nat)
    requires k < MaxAttempts
    requires forall i :: at <= i < at + k ==> Retries(net(i))
    requires !Retries(net(at + k))
    ensures FetchJson(net, at).attempts == k + 1
    ensures FetchJson(net, at).value == AnswerValue(net(at + k))
    ensures FetchJson(net, at).sleeps == Backoff(0, k) + PauseList(QuotaSleep(net(at + k)))
  {
    var judge := Judge;
    forall i | at <= i < at + k
      ensures judge(net(i)).Retried?
    {
      assert Retries(net(i));
    }
    CallingEndsAt(judge, net, at, k);
    FetchSleeps(net, at);
  }

  /** The outcome of a call whose first answer is a parsable reply other
      than a 403/429: 200 gives the payload, 404 gives `not_found`, any other
      status `status_<code>`, all after exactly one request and without
      sleeping. */
  lemma FetchFirstReply(net: Net, at: nat)
    requires net(at).Reply? && !IsRateLimitStatus(net(at).status)
    requires net(at).status == 200 ==> net(at).body.JsonObject?
    ensures var r := FetchJson(net, at);
            var a := net(at);
            && (a.status == 200 ==> r == Fetched(a.body.fields, 1, []))
            && (a.status == 404 ==> r == Fetched(ErrorDict(NotFound), 1, []))
            && (a.status !in {200, 404} ==> r == Fetched(ErrorDict(StatusReason(a.status)), 1, []))
  {
    assert !Retries(net(at)) && QuotaSleep(net(at)) == None;
    assert Backoff(0, 0) + PauseList(None) == [];
    FetchSettlesAt(net, at, 0);
  }

  /** An exhausted quota whose reset time converts ends the call after one
      request with the rate-limit tag and a single pause of at least ten
      seconds. */
  lemma FetchQuotaPause(net: Net, at: nat)
    requires QuotaPauses(net(at))
    ensures var a := net(at);
            && FetchJson(net, at) == Fetched(ErrorDict(RateLimitReason(a.status)), 1, [1000 * QuotaPause(a.reset.value.asInt.value, a.now)])
            && FetchJson(net, at).sleeps[0] >= 10000
  {
    var a := net(at);
    var d := QuotaPause(a.reset.value.asInt.value, a.now);
    assert !Retries(a);
    assert AnswerValue(a) == ErrorDict(RateLimitReason(a.status));
    assert Backoff(0, 0) + PauseList(QuotaSleep(a)) == [1000 * d];
    FetchSettlesAt(net, at, 0);
    assert 1000 * d >= 10000 by { assert d >= 10; }
  }

  /** The reason recorded when the last allowed answer is itself retried:
      the exception it raised, or the rate-limit tag of its status. */
  function GiveUpReason(a: Attempt): string
    requires Retries(a)
  {
    if a.Raised? then ExceptionReason(a.error)
    else if a.status == 200 then ExceptionReason(a.body.error)
    else if QuotaExhausted(a) then ExceptionReason(a.reset.value.asInt.error)
    else RateLimitReason(a.status)
  }

  /** Exhaustion: when every allowed answer is retried, the call issues four
      requests, sleeps 1, 2 and 4 seconds, and reports the last answer's
      exception or rate-limit tag. */
  lemma FetchGivesUp(net: Net, at: nat)
    requires forall i :: at <= i < at + MaxAttempts ==> Retries(net(i))
    ensures FetchJson(net, at).attempts == 4
    ensures FetchJson(net, at).sleeps == [1000, 2000, 4000]
    ensures FetchJson(net, at).value == ErrorDict(GiveUpReason(net(at + RetryLimit)))
  {
    var judge := Judge;
    forall i | at <= i < at + MaxAttempts
      ensures judge(net(i)).Retried?
    {
      assert Retries(net(i));
    }
    CallingExhausts(judge, net, at);
  }
}

=== FILE: mulio.dfy ===
/** The concurrent collector without failure tracking. Its fetcher retries
    transport failures, unparsable 200 bodies and every 403/429 with the
    same backoff as the resumable collector, but has no quota pause and
    returns no value at all (Python's None) for anything but a 200 payload.
    Every repository's record, successful or not, goes to one output file,
    which a run empties before it starts. */
module Mulio {
  import opened Common
  import opened Retry

  /** The answers this fetcher retries: anything raised inside the call and
      every 403 or 429, whatever its headers say. */
  predicate Retries(a: Attempt) {
    || a.Raised?
    || (a.status == 200 && a.body.NotJson?)
    || a.status == 403 || a.status == 429
  }

  function Judge(a: Attempt): Verdict {
    if Retries(a) then Retried else Final(None)
  }

  /** What the fetcher returns when answer `a` is the last one it examines:
      the payload of a 200 reply, and nothing otherwise. */
  function AnswerValue(a: Attempt): Option<Obj> {
    if a.Reply? && a.status == 200 && a.body.JsonObject? then Some(a.body.fields) else None
  }

  /** The end of one call: its value, the requests issued and the sleeps
      made, in milliseconds. */
  datatype Fetched = Fetched(value: Option<Obj>, attempts: nat, sleeps: seq<int>)

  /** One call of the fetcher, issuing its first request at `at`. */
  function FetchJson(net: Net, at: nat): (r: Fetched)
    ensures 1 <= r.attempts <= MaxAttempts
  {
    var run := Calling(Judge, net, at);
    Fetched(AnswerValue(LastAnswer(Judge, net, at)), run.attempts, run.sleeps)
  }

  /** This fetcher never pauses beyond its backoff: the sleeps of a call are
      1, 2, ... seconds, one per retry, and a call ends on a retried answer
      only when no retry is left. */
  lemma FetchOnlyBacksOff(net: Net, at: nat)
    ensures var r := FetchJson(net, at);
            && r.sleeps == Backoff(0, r.attempts - 1)
            && (Retries(LastAnswer(Judge, net, at)) ==> r.attempts == MaxAttempts)
  {
    var judge := Judge;
    CallingSleeps(judge, net, at);
    CallingRetried(judge, net, at);
    assert judge(LastAnswer(judge, net, at)) == Judge(LastAnswer(judge, net, at));
  }

  /** A value is only ever the payload of a 200 reply. */
  lemma FetchValueIsPayload(net: Net, at: nat)
    ensures var r := FetchJson(net, at);
            var a := LastAnswer(Judge, net, at);
            r.value.Some? <==> a.Reply? && a.status == 200 && a.body.JsonObject?
  {
  }

  /** A first reply the fetcher does not retry settles the call after one
      request without sleeping: a 200 gives its payload, any other status
      (404 included) gives nothing. */
  lemma FetchFirstReply(net: Net, at: nat)
    requires net(at).Reply? && !Retries(net(at))
    ensures var a := net(at);
            && (a.status == 200 ==> FetchJson(net, at) == Fetched(Some(a.body.fields), 1, []))
            && (a.status != 200 ==> FetchJson(net, at) == Fetched(None, 1, []))
  {
    var judge := Judge;
    CallingEndsAt(judge, net, at, 0);
    FetchOnlyBacksOff(net, at);
  }

  /** Exhaustion: when every allowed answer is retried, the call issues four
      requests, sleeps 1, 2 and 4 seconds and returns nothing. */
  lemma FetchGivesUp(net: Net, at: nat)
    requires forall i :: at <= i < at + MaxAttempts ==> Retries(net(i))
    ensures FetchJson(net, at) == Fetched(None, MaxAttempts, [1000, 2000, 4000])
  {
    var judge := Judge;
    forall i | at <= i < at + MaxAttempts
      ensures judge(net(i)).Retried?
    {
      assert Retries(net(i));
    }
    CallingExhausts(judge, net, at);
  }

  /** The metadata resolver's reading of a fetch: no value and an empty
      dictionary give nothing; any other dictionary gives its three fields. */
  function InfoOf(data: Option<Obj>): (r: Option<RepoMeta>)
    ensures r.None? <==> data.None? || data.value == map[]
    ensures r.Some? ==> r.value == MetaOf(data.value)
  {
    match data
    case None => None
    case Some(d) => if d == map[] then None else Some(MetaOf(d))
  }

  /** The README resolver's reading of a fetch: the decoded `content`
      field, and nothing when there is no value, no such field, or the
      decoding raises. */
  function ReadmeOf(data: Option<Obj>, decode: Decoder): (r: Option<string>)
    ensures r.Some? <==> data.Some? && "content" in data.value && decode(data.value["content"]).Decoded?
    ensures r.Some? ==> r.value == decode(data.value["content"]).text
  {
    match data
    case None => None
    case Some(d) =>
      if d == map[] || "content" !in d then None
      else
        match decode(d["content"])
        case Decoded(text) => Some(text)
        case Undecodable(_) => None
  }

  /** A resolver's result with the requests and sleeps of its fetch. */
  datatype Got<T> = Got(result: Option<T>, attempts: nat, sleeps: seq<int>)

  function GetRepoInfo(net: Net, at: nat): (r: Got<RepoMeta>)
    ensures 1 <= r.attempts <= MaxAttempts
    ensures r.result == InfoOf(FetchJson(net, at).value)
    ensures r.attempts == FetchJson(net, at).attempts && r.sleeps == FetchJson(net, at).sleeps
  {
    var f := FetchJson(net, at);
    Got(InfoOf(f.value), f.attempts, f.sleeps)
  }

  function GetReadme(net: Net, at: nat, decode: Decoder): (r: Got<string>)
    ensures 1 <= r.attempts <= MaxAttempts
    ensures r.result == ReadmeOf(FetchJson(net, at).value, decode)
    ensures r.attempts == FetchJson(net, at).attempts && r.sleeps == FetchJson(net, at).sleeps
  {
    var f := FetchJson(net, at);
    Got(ReadmeOf(f.value, decode), f.attempts, f.sleeps)
  }

  /** The record written for one repository; there is no failure reason. */
  datatype Record = Record(row: Row, meta: RepoMeta, readmeText: Option<string>, success: bool)

  /** The record of one repository: it succeeds exactly when both resolvers
      produced something; missing metadata is blanked, a missing README is
      written as null. */
  function BuildRecord(row: Row, info: Option<RepoMeta>, readme: Option<string>): (rec: Record)
    ensures rec.row == row && rec.readmeText == readme
    ensures rec.success <==> info.Some? && readme.Some?
    ensures rec.meta == (if info.Some? then info.value else NullMeta)
  {
    var (ok, meta) := if info.Some? then (true, info.value) else (false, NullMeta);
    Record(row, meta, readme, ok && readme.Some?)
  }

  /** The record of one repository with the requests its two fetches issued
      and the sleeps made, the last being the pause after the repository. */
  datatype Made = Made(rec: Record, requests: nat, sleeps: seq<int>)

  function ProcessRepo(net: Net, at: nat, decode: Decoder, row: Row): (m: Made)
    ensures 2 <= m.requests <= 2 * MaxAttempts
    ensures m.rec.row == row
    ensures |m.sleeps| >= 1 && m.sleeps[|m.sleeps| - 1] == MinIntervalMs
  {
    var info := GetRepoInfo(net, at);
    var readme := GetReadme(net, at + info.attempts, decode);
    Made(BuildRecord(row, info.result, readme.result), info.attempts + readme.attempts, info.sleeps + readme.sleeps + [MinIntervalMs])
  }

  /** A repository whose README endpoint answers 404 fails here, with its
      metadata kept and a null README, after two requests. */
  lemma MissingReadmeFails(net: Net, at: nat, decode: Decoder, row: Row)
    requires net(at).Reply? && net(at).status == 200 && net(at).body.JsonObject? && net(at).body.fields != map[]
    requires net(at + 1).Reply? && net(at + 1).status == 404
    ensures var m := ProcessRepo(net, at, decode, row);
            && !m.rec.success && m.rec.readmeText == None
            && m.rec.meta == MetaOf(net(at).body.fields)
            && m.requests == 2 && m.sleeps == [MinIntervalMs]
  {
    FetchFirstReply(net, at);
    FetchFirstReply(net, at + 1);
  }

  /** An empty 200 payload counts as no metadata: the record fails with
      blank fields even though the request succeeded. */
  lemma EmptyPayloadFails(net: Net, at: nat, decode: Decoder, row: Row)
    requires net(at).Reply? && net(at).status == 200 && net(at).body == JsonObject(map[])
    ensures var m := ProcessRepo(net, at, decode, row);
            !m.rec.success && m.rec.meta == NullMeta
  {
    FetchFirstReply(net, at);
  }

  /** What a worker does for one repository, as a function of the index of
      its first request. */
  type Maker = (nat, Row) -> Made

  /** The worker's record is about the row it was given, and it issues
      between two and eight requests. */
  ghost predicate WellBehaved(make: Maker) {
    forall at: nat, row: Row :: make(at, row).rec.row == row && 2 <= make(at, row).requests <= 2 * MaxAttempts
  }

  /** The worker of this collector on a given network and decoder. */
  function MakerOf(net: Net, decode: Decoder): (make: Maker)
    ensures WellBehaved(make)
  {
    (at: nat, row: Row) => ProcessRepo(net, at, decode, row)
  }

  /** The output of a run, the requests issued and the sleeps made. */
  datatype Collected = Collected(output: seq<Record>, requests: nat, sleeps: seq<int>)

  /** The rows processed from request `at` on: each repository's fetches
      start where the previous repository's stopped, and its record is
      appended whatever its outcome. */
  function Collect(make: Maker, rows: seq<Row>, at: nat): (c: Collected)
    ensures |c.output| == |rows|
    decreases |rows|
  {
    if rows == [] then Collected([], 0, [])
    else
      var m := make(at, rows[0]);
      var rest := Collect(make, rows[1..], at + m.requests);
      Collected([m.rec] + rest.output, m.requests + rest.requests, m.sleeps + rest.sleeps)
  }

  /** Every row given gets exactly one record, in the order given, and the
      rows issue between two and eight requests each. */
  lemma {:induction false} CollectRows(make: Maker, rows: seq<Row>, at: nat)
    requires WellBehaved(make)
    ensures var c := Collect(make, rows, at);
            && (forall i :: 0 <= i < |rows| ==> c.output[i].row == rows[i])
            && 2 * |rows| <= c.requests <= 2 * MaxAttempts * |rows|
    decreases |rows|
  {
    if rows != [] {
      var m := make(at, rows[0]);
      CollectRows(make, rows[1..], at + m.requests);
      var c := Collect(make, rows, at);
      var rest := Collect(make, rows[1..], at + m.requests);
      forall i | 1 <= i < |rows|
        ensures c.output[i].row == rows[i]
      {
        assert c.output[i] == rest.output[i - 1];
      }
    }
  }

  /** The rows of some records, in order. */
  function RowsOfRecords(recs: seq<Record>): (rows: seq<Row>)
    ensures |rows| == |recs|
    ensures forall i :: 0 <= i < |recs| ==> rows[i] == recs[i].row
  {
    if recs == [] then [] else [recs[0].row] + RowsOfRecords(recs[1..])
  }

  /** A run: the output file is emptied, then the workers process every row
      of the CSV, each appending its record when it finishes. The output
      holds exactly one record per CSV row, in the order the workers
      finish, and nothing from before the run. */
  function Run(net: Net, decode: Decoder, order: Order, rows: seq<Row>): (c: Collected)
    requires Permutes(order)
    ensures |c.output| == |rows|
    ensures multiset(RowsOfRecords(c.output)) == multiset(rows)
    ensures RowsOfRecords(c.output) == order(0, rows)
    ensures 2 * |rows| <= c.requests <= 2 * MaxAttempts * |rows|
  {
    var make := MakerOf(net, decode);
    var run := order(0, rows);
    assert |run| == |multiset(run)| == |multiset(rows)| == |rows|;
    CollectRows(make, run, 0);
    RowsOfCollect(make, run, 0);
    Collect(make, run, 0)
  }

  /** The records of the rows given are about those rows, in that order. */
  lemma RowsOfCollect(make: Maker, rows: seq<Row>, at: nat)
    requires WellBehaved(make)
    ensures RowsOfRecords(Collect(make, rows, at).output) == rows
  {
    CollectRows(make, rows, at);
    var rs := RowsOfRecords(Collect(make, rows, at).output);
    assert |rs| == |rows| && forall i :: 0 <= i < |rows| ==> rs[i] == rows[i];
  }

  /** Each worker ends with the 0.1 s pause. */
  ghost predicate PausesAfter(make: Maker) {
    forall at: nat, row: Row :: MinIntervalMs in make(at, row).sleeps
  }

  lemma MakerOfPauses(net: Net, decode: Decoder)
    ensures PausesAfter(MakerOf(net, decode))
  {
    forall at: nat, row: Row
      ensures MinIntervalMs in MakerOf(net, decode)(at, row).sleeps
    {
      var m := ProcessRepo(net, at, decode, row);
      assert m.sleeps[|m.sleeps| - 1] == MinIntervalMs;
    }
  }

  /** The rows make at least one 0.1 s pause each. */
  lemma {:induction false} CollectPauses(make: Maker, rows: seq<Row>, at: nat)
    requires PausesAfter(make)
    ensures multiset(Collect(make, rows, at).sleeps)[MinIntervalMs] >= |rows|
    decreases |rows|
  {
    if rows != [] {
      var m := make(at, rows[0]);
      CollectPauses(make, rows[1..], at + m.requests);
      assert multiset(m.sleeps)[MinIntervalMs] >= 1;
      assert Collect(make, rows, at).sleeps == m.sleeps + Collect(make, rows[1..], at + m.requests).sleeps;
    }
  }

  /** A run pauses for 0.1 s at least once per CSV row. */
  lemma RunPauses(net: Net, decode: Decoder, order: Order, rows: seq<Row>)
    requires Permutes(order)
    ensures multiset(Run(net, decode, order, rows).sleeps)[MinIntervalMs] >= |rows|
  {
    var run := order(0, rows);
    assert |run| == |multiset(run)| == |multiset(rows)| == |rows|;
    MakerOfPauses(net, decode);
    CollectPauses(MakerOf(net, decode), run, 0);
  }

}

=== FILE: pending.dfy ===
/** The pending list of the resumable collector. Ranking rows whose id is
    not in the success set are keyed by id the way a dictionary
    comprehension keys them (a later row replaces the value of an earlier
    one but the key keeps its first position), then rows of the previous
    failed file are added under ids not yet present, and the dictionary's
    values are taken in key order. The dictionary is modelled as a
    sequence of rows in key order. */
module Pending {
  import opened Common
  import opened Processor

  /** The ids of some rows. */
  function Ids(rows: seq<Row>): set<string> {
    if rows == [] then {} else {rows[0].repoId} + Ids(rows[1..])
  }

  lemma {:induction false} IdsIndex(rows: seq<Row>, id: string)
    ensures id in Ids(rows) <==> exists i :: 0 <= i < |rows| && rows[i].repoId == id
  {
    if rows != [] {
      IdsIndex(rows[1..], id);
      if id in Ids(rows[1..]) {
        var i :| 0 <= i < |rows[1..]| && rows[1..][i].repoId == id;
        assert rows[i + 1].repoId == id;
      }
      if exists i :: 0 <= i < |rows| && rows[i].repoId == id {
        var i :| 0 <= i < |rows| && rows[i].repoId == id;
        if i > 0 {
          assert rows[1..][i - 1].repoId == id;
        }
      }
    }
  }

  predicate DistinctIds(rows: seq<Row>) {
    forall i, j :: 0 <= i < j < |rows| ==> rows[i].repoId != rows[j].repoId
  }

  /** The first row with the given id, as a dictionary lookup finds it. */
  function Lookup(rows: seq<Row>, id: string): (r: Option<Row>)
    ensures r.Some? <==> id in Ids(rows)
    ensures r.Some? ==> r.value.repoId == id
  {
    if rows == [] then None
    else if rows[0].repoId == id then Some(rows[0])
    else Lookup(rows[1..], id)
  }

  /** The last row with the given id. */
  function LastWith(rows: seq<Row>, id: string): (r: Option<Row>)
    ensures r.Some? <==> id in Ids(rows)
    ensures r.Some? ==> r.value.repoId == id
  {
    if rows == [] then None
    else if id in Ids(rows[1..]) then LastWith(rows[1..], id)
    else if rows[0].repoId == id then Some(rows[0])
    else None
  }

  /** The rows whose id is not already claimed by the success set. */
  function Unclaimed(rows: seq<Row>, claimed: set<string>): (u: seq<Row>)
    ensures |u| <= |rows|
    ensures Ids(u) == Ids(rows) - claimed
    ensures forall r :: r in u <==> r in rows && r.repoId !in claimed
  {
    if rows == [] then []
    else if rows[0].repoId !in claimed then [rows[0]] + Unclaimed(rows[1..], claimed)
    else Unclaimed(rows[1..], claimed)
  }

  /** Dropping the claimed rows keeps, for every unclaimed id, the last
      ranking row with that id. */
  lemma {:induction false} UnclaimedKeepsLast(rows: seq<Row>, claimed: set<string>, id: string)
    requires id !in claimed
    ensures LastWith(Unclaimed(rows, claimed), id) == LastWith(rows, id)
  {
    if rows != [] {
      UnclaimedKeepsLast(rows[1..], claimed, id);
      var tail := Unclaimed(rows[1..], claimed);
      if rows[0].repoId !in claimed {
        assert ([rows[0]] + tail)[1..] == tail;
      }
    }
  }

  /** A failed-file line read back as a row: a full record keeps the three
      row fields, and a bare row is already one. */
  function RowOf(line: FailedLine): Row {
    match line
    case FullRecord(rec) => rec.row
    case RowOnly(row) => row
  }

  function RowsOf(lines: seq<FailedLine>): (rows: seq<Row>)
    ensures |rows| == |lines|
    ensures forall i :: 0 <= i < |lines| ==> rows[i] == RowOf(lines[i])
  {
    if lines == [] then [] else [RowOf(lines[0])] + RowsOf(lines[1..])
  }

  /** Assignment `d[r.repoId] = r`: an existing key keeps its position and
      takes the new row, a new key goes last. */
  function Put(d: seq<Row>, r: Row): (e: seq<Row>)
    ensures Ids(e) == Ids(d) + {r.repoId}
    ensures |e| == if r.repoId in Ids(d) then |d| else |d| + 1
    ensures forall i :: 0 <= i < |d| ==> e[i].repoId == d[i].repoId
    ensures r.repoId !in Ids(d) ==> e[|d|] == r
  {
    if d == [] then [r]
    else if d[0].repoId == r.repoId then
      var e := [r] + d[1..];
      assert e[1..] == d[1..];
      e
    else
      var e := [d[0]] + Put(d[1..], r);
      assert e[1..] == Put(d[1..], r);
      e
  }

  /** Insertion only under an id not yet present. */
  function PutAbsent(d: seq<Row>, r: Row): (e: seq<Row>)
    ensures Ids(e) == Ids(d) + {r.repoId}
  {
    if r.repoId in Ids(d) then d
    else
      IdsAppend(d, r);
      d + [r]
  }

  lemma {:induction false} IdsAppend(d: seq<Row>, r: Row)
    ensures Ids(d + [r]) == Ids(d) + {r.repoId}
  {
    if d != [] {
      assert (d + [r])[1..] == d[1..] + [r];
      IdsAppend(d[1..], r);
    }
  }

  /** The dictionary comprehension: rows put in order into `d`. */
  function KeyedFrom(d: seq<Row>, rows: seq<Row>): (e: seq<Row>)
    ensures Ids(e) == Ids(d) + Ids(rows)
    decreases |rows|
  {
    if rows == [] then d else KeyedFrom(Put(d, rows[0]), rows[1..])
  }

  /** The loop adding failed-file rows under ids not yet present, in order. */
  function AddMissing(d: seq<Row>, extra: seq<Row>): (e: seq<Row>)
    ensures Ids(e) == Ids(d) + Ids(extra)
    decreases |extra|
  {
    if extra == [] then d else AddMissing(PutAbsent(d, extra[0]), extra[1..])
  }

  /** The list of repositories a run starts with: every ranking id not yet
      claimed by the success index and every failed-file id, each once. */
  function PendingList(csv: seq<Row>, successIds: set<string>, failedFile: seq<FailedLine>): (p: seq<Row>)
    ensures DistinctIds(p)
    ensures Ids(p) == (Ids(csv) - successIds) + Ids(RowsOf(failedFile))
  {
    var u := Unclaimed(csv, successIds);
    KeyedSpec([], u);
    AddMissingSpec(KeyedFrom([], u), RowsOf(failedFile));
    AddMissing(KeyedFrom([], u), RowsOf(failedFile))
  }

  lemma {:induction false} PutLookup(d: seq<Row>, r: Row, id: string)
    ensures Lookup(Put(d, r), id) == if id == r.repoId then Some(r) else Lookup(d, id)
  {
    if d != [] && d[0].repoId != r.repoId {
      PutLookup(d[1..], r, id);
    }
  }

  lemma PutDistinct(d: seq<Row>, r: Row)
    requires DistinctIds(d)
    ensures DistinctIds(Put(d, r))
  {
    var e := Put(d, r);
    if r.repoId !in Ids(d) {
      forall i | 0 <= i < |d|
        ensures e[i].repoId != e[|d|].repoId
      {
        IdsIndex(d, r.repoId);
      }
    }
  }

  lemma {:induction false} LookupAppend(d: seq<Row>, r: Row, id: string)
    ensures Lookup(d + [r], id) == if id in Ids(d) then Lookup(d, id) else if id == r.repoId then Some(r) else None
  {
    if d != [] {
      assert (d + [r])[1..] == d[1..] + [r];
      LookupAppend(d[1..], r, id);
    }
  }

  lemma PutAbsentDistinct(d: seq<Row>, r: Row)
    requires DistinctIds(d)
    ensures DistinctIds(PutAbsent(d, r))
  {
    if r.repoId !in Ids(d) {
      IdsIndex(d, r.repoId);
    }
  }

  /** The comprehension keeps each id once, with the value of its last
      row; keys already present keep their positions (`KeyedPrefix`). */
  lemma {:induction false} KeyedSpec(d: seq<Row>, rows: seq<Row>)
    requires DistinctIds(d)
    ensures DistinctIds(KeyedFrom(d, rows))
    ensures forall id :: Lookup(KeyedFrom(d, rows), id) == if id in Ids(rows) then LastWith(rows, id) else Lookup(d, id)
    decreases |rows|
  {
    if rows != [] {
      PutDistinct(d, rows[0]);
      KeyedSpec(Put(d, rows[0]), rows[1..]);
      forall id
        ensures Lookup(KeyedFrom(d, rows), id) == if id in Ids(rows) then LastWith(rows, id) else Lookup(d, id)
      {
        PutLookup(d, rows[0], id);
      }
    }
  }

  lemma {:induction false} KeyedPrefix(d: seq<Row>, rows: seq<Row>)
    ensures |d| <= |KeyedFrom(d, rows)|
    ensures forall i :: 0 <= i < |d| ==> KeyedFrom(d, rows)[i].repoId == d[i].repoId
    decreases |rows|
  {
    if rows != [] {
      KeyedPrefix(Put(d, rows[0]), rows[1..]);
    }
  }

  /** Adding missing rows keeps the dictionary as a prefix, keeps ids
      distinct, leaves present ids alone, and gives every new id its
      first row among the added ones. */
  lemma {:induction false} AddMissingSpec(d: seq<Row>, extra: seq<Row>)
    requires DistinctIds(d)
    ensures var e := AddMissing(d, extra);
            && |d| <= |e| && e[..|d|] == d
            && DistinctIds(e)
            && forall id :: Lookup(e, id) == if id in Ids(d) then Lookup(d, id) else Lookup(extra, id)
    decreases |extra|
  {
    if extra != [] {
      var d' := PutAbsent(d, extra[0]);
      PutAbsentDistinct(d, extra[0]);
      AddMissingSpec(d', extra[1..]);
      var e := AddMissing(d, extra);
      assert e[..|d|] == d by {
        assert e[..|d'|] == d';
        assert d'[..|d|] == d;
      }
      forall id
        ensures Lookup(e, id) == if id in Ids(d) then Lookup(d, id) else Lookup(extra, id)
      {
        if extra[0].repoId !in Ids(d) {
          LookupAppend(d, extra[0], id);
        }
      }
    }
  }

  /** The pending list: no id twice; exactly the ids of the unclaimed
      ranking rows and of the failed file; an unclaimed id from the
      ranking carries its last ranking row, any other id its first failed
      row; and the ranking ids come first. */
  lemma PendingListSpec(csv: seq<Row>, successIds: set<string>, failedFile: seq<FailedLine>)
    ensures var p := PendingList(csv, successIds, failedFile);
            var k := KeyedFrom([], Unclaimed(csv, successIds));
            && DistinctIds(p)
            && Ids(p) == (Ids(csv) - successIds) + Ids(RowsOf(failedFile))
            && (forall id :: id in Ids(csv) - successIds ==> Lookup(p, id) == LastWith(csv, id))
            && (forall id :: id !in Ids(csv) - successIds ==> Lookup(p, id) == Lookup(RowsOf(failedFile), id))
            && |k| <= |p| && p[..|k|] == k
  {
    var p := PendingList(csv, successIds, failedFile);
    var u := Unclaimed(csv, successIds);
    KeyedSpec([], u);
    AddMissingSpec(KeyedFrom([], u), RowsOf(failedFile));
    forall id | id in Ids(csv) - successIds
      ensures Lookup(p, id) == LastWith(csv, id)
    {
      UnclaimedKeepsLast(csv, successIds, id);
    }
  }

  /** Failed-file rows are not checked against the success set: a row of
      the failed file is pending even when its id is already a success. */
  lemma FailedRowsNotFiltered(csv: seq<Row>, successIds: set<string>, failedFile: seq<FailedLine>, i: nat)
    requires i < |failedFile|
    ensures RowOf(failedFile[i]).repoId in Ids(PendingList(csv, successIds, failedFile))
  {
    IdsIndex(RowsOf(failedFile), RowOf(failedFile[i]).repoId);
  }
}

=== FILE: processor.dfy ===
/** One repository of the resumable collector: both resolvers, the record
    they make, and the record's effect on the three logs (the output, the
    success index and the failed file) and on the in-memory success-id set. */
module Processor {
  import opened Common
  import opened Retry
  import opened Fetcher
  import opened Resolvers

  /** The record written for one repository. `failReason` is JSON null when
      no reason was recorded. */
  datatype Record = Record(row: Row, meta: RepoMeta, readmeText: Option<string>, success: bool, failReason: Json)

  /** A line of the success index. */
  datatype SuccessEntry = SuccessEntry(repoId: string, repoName: string)

  /** A line of the failed file: a full record appended while processing,
      or a bare row written when a round ends. */
  datatype FailedLine = FullRecord(rec: Record) | RowOnly(row: Row)

  /** The three logs and the success-id set shared by all workers. */
  datatype Store = Store(output: seq<Record>, successIndex: seq<SuccessEntry>, failed: seq<FailedLine>, successIds: set<string>)

  /** A README failure that makes the repository fail: every reason but
      exactly `not_found`. */
  predicate ReadmeFails(readme: ReadmeResult) {
    readme.ReadmeError? && readme.reason != JStr(NotFound)
  }

  /** The record of one repository, built the way the collector builds it:
      success starts true with no reason, a metadata failure clears it,
      records its reason and blanks the fields, and a README failure other
      than `not_found` clears it again and overwrites the reason. */
  function BuildRecord(row: Row, info: InfoResult, readme: ReadmeResult): (rec: Record)
    ensures rec.row == row
    ensures rec.success <==> info.Info? && (readme.Readme? || readme.reason == JStr(NotFound))
    ensures rec.success ==> rec.failReason == JNull
    ensures ReadmeFails(readme) ==> rec.failReason == readme.reason
    ensures info.InfoError? && !ReadmeFails(readme) ==> rec.failReason == info.reason
    ensures info.InfoError? ==> rec.meta == NullMeta
    ensures info.Info? ==> rec.meta == info.meta
    ensures readme.Readme? ==> rec.readmeText == Some(readme.text)
    ensures readme.ReadmeError? ==> rec.readmeText == None
  {
    var (infoOk, infoReason, meta) :=
      match info
      case Info(m) => (true, JNull, m)
      case InfoError(reason) => (false, reason, NullMeta);
    match readme
    case Readme(text) => Record(row, meta, Some(text), infoOk, infoReason)
    case ReadmeError(reason) =>
      if reason != JStr(NotFound) then Record(row, meta, None, false, reason)
      else Record(row, meta, None, infoOk, infoReason)
  }

  /** The ids listed in a success index. */
  function IndexIds(index: seq<SuccessEntry>): set<string> {
    set e | e in index :: e.repoId
  }

  predicate DistinctIndex(index: seq<SuccessEntry>) {
    forall i, j :: 0 <= i < j < |index| ==> index[i].repoId != index[j].repoId
  }

  /** The success-id set mirrors the success index, which lists each id once. */
  predicate Consistent(s: Store) {
    IndexIds(s.successIndex) == s.successIds && DistinctIndex(s.successIndex)
  }

  /** The log effects of one record: a success is appended to the output,
      and to the success index only when its id is not yet in the set; a
      failure is appended to the failed file; nothing else changes. */
  function Commit(s: Store, rec: Record): (t: Store)
    ensures rec.success ==> t.output == s.output + [rec] && t.failed == s.failed
    ensures rec.success ==> t.successIds == s.successIds + {rec.row.repoId}
    ensures rec.success && rec.row.repoId !in s.successIds ==>
              t.successIndex == s.successIndex + [SuccessEntry(rec.row.repoId, rec.row.repoName)]
    ensures rec.success && rec.row.repoId in s.successIds ==> t.successIndex == s.successIndex
    ensures !rec.success ==> t == s.(failed := s.failed + [FullRecord(rec)])
  {
    if rec.success then
      var index :=
        if rec.row.repoId !in s.successIds then s.successIndex + [SuccessEntry(rec.row.repoId, rec.row.repoName)]
        else s.successIndex;
      Store(s.output + [rec], index, s.failed, s.successIds + {rec.row.repoId})
    else
      s.(failed := s.failed + [FullRecord(rec)])
  }

  /** Committing a record keeps the success index and the id set in step,
      and never lists an id twice in the index. */
  lemma CommitKeepsConsistent(s: Store, rec: Record)
    requires Consistent(s)
    ensures Consistent(Commit(s, rec))
  {
    var t := Commit(s, rec);
    if rec.success && rec.row.repoId !in s.successIds {
      var e := SuccessEntry(rec.row.repoId, rec.row.repoName);
      assert IndexIds(t.successIndex) == IndexIds(s.successIndex) + {e.repoId} by {
        assert forall x :: x in t.successIndex <==> x in s.successIndex || x == e;
      }
      forall i, j | 0 <= i < j < |t.successIndex|
        ensures t.successIndex[i].repoId != t.successIndex[j].repoId
      {
        if j == |s.successIndex| {
          assert t.successIndex[i] in s.successIndex;
        }
      }
    }
  }

  /** Exactly one log line per record: the output or the failed file grows
      by one, the other log is unchanged, and the index grows by at most one. */
  lemma CommitAppendsOnce(s: Store, rec: Record)
    ensures var t := Commit(s, rec);
            && |t.output| + |t.failed| == |s.output| + |s.failed| + 1
            && |s.successIndex| <= |t.successIndex| <= |s.successIndex| + 1
            && s.successIds <= t.successIds
            && (rec.row.repoId in t.successIds <==> rec.row.repoId in s.successIds || rec.success)
  {
  }

  /** The output is not deduplicated: committing the same successful record
      twice writes it to the output twice but to the index at most once. */
  lemma RepeatedSuccessDuplicatesOutput(s: Store, rec: Record)
    requires rec.success
    ensures var t := Commit(Commit(s, rec), rec);
            && t.output == s.output + [rec, rec]
            && |t.successIndex| <= |s.successIndex| + 1
  {
  }

  /** The record of one repository, the number of requests its two
      fetches issued and the sleeps made, in milliseconds. */
  datatype Made = Made(rec: Record, requests: nat, sleeps: seq<int>)

  /** The fetching part of one repository: the metadata fetch, then the
      README fetch starting where the first one stopped, the record, and
      the pause after it. */
  function MakeRecord(net: Net, at: nat, decode: Decoder, row: Row): (m: Made)
    ensures 2 <= m.requests <= 2 * MaxAttempts
    ensures m.rec.row == row
    ensures |m.sleeps| >= 1 && m.sleeps[|m.sleeps| - 1] == MinIntervalMs
  {
    var info := GetRepoInfo(net, at);
    var readme := GetReadme(net, at + info.attempts, decode);
    Made(BuildRecord(row, info.result, readme.result), info.attempts + readme.attempts, info.sleeps + readme.sleeps + [MinIntervalMs])
  }

  /** The end of one repository: its record, the logs after it, the number
      of requests issued and the sleeps made. */
  datatype Processed = Processed(rec: Record, store: Store, requests: nat, sleeps: seq<int>)

  /** One repository: its record, then the record's log effects. */
  function ProcessRepo(net: Net, at: nat, decode: Decoder, row: Row, s: Store): (p: Processed)
    ensures p.rec.row == row
    ensures p.rec.success ==> p.store.output == s.output + [p.rec] && p.store.failed == s.failed
    ensures !p.rec.success ==> p.store == s.(failed := s.failed + [FullRecord(p.rec)])
  {
    var m := MakeRecord(net, at, decode, row);
    Processed(m.rec, Commit(s, m.rec), m.requests, m.sleeps)
  }

  /** A repository without a README: the metadata fetch succeeds and the
      README fetch answers 404, and the record succeeds with blank README
      text after two requests, since only a README reason other than
      `not_found` is a failure. */
  lemma MissingReadmeSucceeds(net: Net, at: nat, decode: Decoder, row: Row, s: Store)
    requires net(at).Reply? && net(at).status == 200 && net(at).body.JsonObject?
    requires net(at).body.fields != map[] && "_error" !in net(at).body.fields
    requires net(at + 1).Reply? && net(at + 1).status == 404
    ensures var p := ProcessRepo(net, at, decode, row, s);
            && p.rec.success && p.rec.readmeText == None && p.rec.failReason == JNull
            && p.requests == 2 && p.sleeps == [MinIntervalMs]
            && p.store.output == s.output + [p.rec]
  {
    InfoFromPayload(net, at);
    NotFoundResolves(net, at + 1, decode);
  }

  /** When both resolvers fail, the README's reason is the one recorded
      and the record goes to the failed file with blank metadata. */
  lemma BothFailReadmeWins(row: Row, s: Store, infoReason: Json, readmeReason: Json)
    requires readmeReason != JStr(NotFound)
    ensures var rec := BuildRecord(row, InfoError(infoReason), ReadmeError(readmeReason));
            && !rec.success && rec.failReason == readmeReason && rec.meta == NullMeta
            && Commit(s, rec) == s.(failed := s.failed + [FullRecord(rec)])
  {
  }

  /** A 200 payload that carries `"_error": null` fails the repository with
      no recorded reason, so a null reason does not by itself mean success. */
  lemma NullReasonCanFail(row: Row, readme: ReadmeResult)
    ensures var rec := BuildRecord(row, InfoOf(map["_error" := JNull]), readme);
            !rec.success && (!ReadmeFails(readme) ==> rec.failReason == JNull)
  {
  }
}

=== FILE: resolvers.dfy ===
/** The two resolvers of the resumable collector. Each calls the fetcher
    once and reads the dictionary it returns: the metadata resolver keeps
    three repository fields, the README resolver decodes the `content`
    field. Failures are one-key dictionaries `{"_error": reason}`, whose
    reason is usually a string but is whatever JSON value the payload held
    when a 200 payload itself carries an `_error` key. */
module Resolvers {
  import opened Common
  import opened Retry
  import opened Fetcher

  /** The metadata resolver's result: the three kept fields, or a reason. */
  datatype InfoResult = Info(meta: RepoMeta) | InfoError(reason: Json)

  /** The README resolver's result: the decoded text, or a reason. */
  datatype ReadmeResult = Readme(text: string) | ReadmeError(reason: Json)

  /** A resolver's result together with the requests and sleeps of its fetch. */
  datatype Resolved<T> = Resolved(result: T, attempts: nat, sleeps: seq<int>)

  const UnknownError: string := "unknown_error"
  const NoResponse: string := "no_response"
  const NoContentField: string := "no_content_field"

  function DecodeErrorReason(kind: string): string {
    "decode_error_" + kind
  }

  /** The metadata resolver's reading of a fetch result: an empty dictionary
      and a dictionary holding `_error` are failures, everything else is a
      payload whose three fields are kept. */
  function InfoOf(data: Obj): (r: InfoResult)
    ensures r.InfoError? <==> data == map[] || "_error" in data
    ensures data == map[] ==> r == InfoError(JStr(UnknownError))
    ensures "_error" in data ==> r == InfoError(data["_error"])
    ensures r.Info? ==> r.meta == MetaOf(data)
  {
    if data == map[] then InfoError(JStr(UnknownError))
    else if "_error" in data then InfoError(data["_error"])
    else Info(MetaOf(data))
  }

  /** The README resolver's reading of a fetch result. The checks run in
      order: an empty dictionary, a propagated reason, a missing `content`
      field, then a decoding failure. */
  function ReadmeOf(data: Obj, decode: Decoder): (r: ReadmeResult)
    ensures r.Readme? <==> data != map[] && "_error" !in data && "content" in data && decode(data["content"]).Decoded?
    ensures r.Readme? ==> r.text == decode(data["content"]).text
    ensures data == map[] ==> r == ReadmeError(JStr(NoResponse))
    ensures data != map[] && "_error" in data ==> r == ReadmeError(data["_error"])
    ensures data != map[] && "_error" !in data && "content" !in data ==> r == ReadmeError(JStr(NoContentField))
    ensures data != map[] && "_error" !in data && "content" in data && decode(data["content"]).Undecodable? ==>
              r == ReadmeError(JStr(DecodeErrorReason(decode(data["content"]).kind)))
  {
    if data == map[] then ReadmeError(JStr(NoResponse))
    else if "_error" in data then ReadmeError(data["_error"])
    else if "content" !in data then ReadmeError(JStr(NoContentField))
    else
      match decode(data["content"])
      case Decoded(text) => Readme(text)
      case Undecodable(kind) => ReadmeError(JStr(DecodeErrorReason(kind)))
  }

  /** The metadata resolver: one fetch of the repository endpoint. */
  function GetRepoInfo(net: Net, at: nat): (r: Resolved<InfoResult>)
    ensures 1 <= r.attempts <= MaxAttempts
    ensures r.result == InfoOf(FetchJson(net, at).value)
    ensures r.attempts == FetchJson(net, at).attempts && r.sleeps == FetchJson(net, at).sleeps
  {
    var f := FetchJson(net, at);
    Resolved(InfoOf(f.value), f.attempts, f.sleeps)
  }

  /** The README resolver: one fetch of the README endpoint. */
  function GetReadme(net: Net, at: nat, decode: Decoder): (r: Resolved<ReadmeResult>)
    ensures 1 <= r.attempts <= MaxAttempts
    ensures r.result == ReadmeOf(FetchJson(net, at).value, decode)
    ensures r.attempts == FetchJson(net, at).attempts && r.sleeps == FetchJson(net, at).sleeps
  {
    var f := FetchJson(net, at);
    Resolved(ReadmeOf(f.value, decode), f.attempts, f.sleeps)
  }

  /** Both resolvers pass a fetcher failure on unchanged: the reason string
      of the error dictionary becomes the resolver's reason. */
  lemma ErrorDictPropagates(reason: string, decode: Decoder)
    ensures InfoOf(ErrorDict(reason)) == InfoError(JStr(reason))
    ensures ReadmeOf(ErrorDict(reason), decode) == ReadmeError(JStr(reason))
  {
    assert "_error" in ErrorDict(reason);
  }

  /** A repository the endpoint does not know: a 404 answer gives both
      resolvers the reason `not_found` after one request and no sleep. */
  lemma NotFoundResolves(net: Net, at: nat, decode: Decoder)
    requires net(at).Reply? && net(at).status == 404
    ensures GetRepoInfo(net, at) == Resolved(InfoError(JStr(NotFound)), 1, [])
    ensures GetReadme(net, at, decode) == Resolved(ReadmeError(JStr(NotFound)), 1, [])
  {
    FetchFirstReply(net, at);
    ErrorDictPropagates(NotFound, decode);
  }

  /** A 200 payload holding the repository's fields: the metadata resolver
      keeps description, homepage and topics, an absent topic list reading
      as the empty list. */
  lemma InfoFromPayload(net: Net, at: nat)
    requires net(at).Reply? && net(at).status == 200 && net(at).body.JsonObject?
    requires net(at).body.fields != map[] && "_error" !in net(at).body.fields
    ensures var d := net(at).body.fields;
            GetRepoInfo(net, at) == Resolved(Info(RepoMeta(GetOr(d, "description", JNull), GetOr(d, "homepage", JNull), GetOr(d, "topics", JArr([])))), 1, [])
  {
    FetchFirstReply(net, at);
  }
}

=== FILE: retry.dfy ===
/** The bounded exponential-backoff retry loop shared by the two retrying
    collector variants. Each variant judges the answers a call may receive,
    one per attempt: an answer is final (possibly followed by a pause), or it
    is retried while retries remain. A call returns what its last answer
    gives, so the loop itself only decides how many requests are issued and
    which sleeps happen between them. */
module Retry {
  import opened Common

  /** Retries allowed after the first attempt. */
  const RetryLimit: nat := 3

  /** The most requests one call can issue. */
  const MaxAttempts: nat := RetryLimit + 1

  /** How the loop treats one answer: final, with an optional pause before
      returning, or retried. */
  datatype Verdict = Final(pause: Option<int>) | Retried

  /** The shape of one call: the number of requests issued and the sleeps
      made, in order, in milliseconds. */
  datatype Run = Run(attempts: nat, sleeps: seq<int>)

  function PauseList(p: Option<int>): seq<int> {
    match p
    case None => []
    case Some(d) => [d]
  }

  /** The pause a call's last answer adds after the backoff sleeps. */
  function LastPause(last: Verdict): seq<int> {
    if last.Final? then PauseList(last.pause) else []
  }

  /** The backoff waits of n consecutive retries: 2^from, 2^(from+1), ...
      seconds, in milliseconds. */
  function Backoff(from: nat, n: nat): (s: seq<int>)
    ensures |s| == n
    decreases n
  {
    if n == 0 then [] else [1000 * Pow2(from)] + Backoff(from + 1, n - 1)
  }

  /** The retry loop. `verdicts[k]` judges the answer to attempt k of the
      call. Attempt `retry` is examined; a retried answer with the counter
      below the limit sleeps 2^retry seconds and moves to the next attempt. */
  function Retrying(verdicts: seq<Verdict>, retry: nat): (r: Run)
    requires retry < |verdicts| == MaxAttempts
    ensures 1 <= r.attempts <= MaxAttempts - retry
    ensures forall k :: retry <= k < retry + r.attempts - 1 ==> verdicts[k].Retried?
    ensures verdicts[retry + r.attempts - 1].Retried? ==> retry + r.attempts == MaxAttempts
    decreases RetryLimit - retry
  {
    match verdicts[retry]
    case Final(pause) => Run(1, PauseList(pause))
    case Retried =>
      if retry < RetryLimit then
        var rest := Retrying(verdicts, retry + 1);
        Run(rest.attempts + 1, [1000 * Pow2(retry)] + rest.sleeps)
      else
        Run(1, [])
  }

  lemma BackoffCons(from: nat, n: nat, tail: seq<int>)
    requires n >= 1
    ensures [1000 * Pow2(from)] + (Backoff(from + 1, n - 1) + tail) == Backoff(from, n) + tail
  {
  }

  /** The sleeps of a call: one backoff sleep 2^retry, 2^(retry+1), ... per
      retry, then the pause of the final answer if it has one. */
  lemma {:induction false} RetryingSleeps(verdicts: seq<Verdict>, retry: nat)
    requires retry < |verdicts| == MaxAttempts
    ensures var r := Retrying(verdicts, retry);
            r.sleeps == Backoff(retry, r.attempts - 1) + LastPause(verdicts[retry + r.attempts - 1])
    decreases RetryLimit - retry
  {
    if verdicts[retry].Retried? && retry < RetryLimit {
      RetryingSleeps(verdicts, retry + 1);
      var rest := Retrying(verdicts, retry + 1);
      BackoffCons(retry, rest.attempts, LastPause(verdicts[retry + 1 + rest.attempts - 1]));
    }
  }

  /** A reference reading of the loop: if the first k answers are retried
      and answer k is final, the call issues exactly k+1 requests and sleeps
      1, 2, ..., 2^(k-1) seconds, then any pause of the final answer. */
  lemma FirstFinalEnds(verdicts: seq<Verdict>, k: nat)
    requires |verdicts| == MaxAttempts && k < MaxAttempts
    requires forall j :: 0 <= j < k ==> verdicts[j].Retried?
    requires verdicts[k].Final?
    ensures Retrying(verdicts, 0).attempts == k + 1
    ensures Retrying(verdicts, 0).sleeps == Backoff(0, k) + PauseList(verdicts[k].pause)
  {
    RetryingSleeps(verdicts, 0);
  }

  /** A reference reading of exhaustion: if every answer is retried, the
      call issues RetryLimit+1 requests and sleeps 1, 2 and 4 seconds. */
  lemma AllRetriedExhausts(verdicts: seq<Verdict>)
    requires |verdicts| == MaxAttempts
    requires forall j :: 0 <= j < MaxAttempts ==> verdicts[j].Retried?
    ensures Retrying(verdicts, 0) == Run(MaxAttempts, [1000, 2000, 4000])
  {
    RetryingSleeps(verdicts, 0);
    assert Backoff(0, 3) == [1000, 2000, 4000] by {
      assert Backoff(2, 1) == [1000 * Pow2(2)];
      assert Backoff(1, 2) == [1000 * Pow2(1)] + Backoff(2, 1);
    }
  }

  /** How the loop treats the answers to the n requests `at`, `at+1`, ... */
  function Judgements(judge: Attempt -> Verdict, net: Net, at: nat, n: nat): (v: seq<Verdict>)
    ensures |v| == n
    decreases n
  {
    if n == 0 then [] else [judge(net(at))] + Judgements(judge, net, at + 1, n - 1)
  }

  /** The verdicts on every answer one call may examine. */
  function Verdicts(judge: Attempt -> Verdict, net: Net, at: nat): (v: seq<Verdict>)
    ensures |v| == MaxAttempts
  {
    Judgements(judge, net, at, MaxAttempts)
  }

  lemma {:induction false} JudgementAt(judge: Attempt -> Verdict, net: Net, at: nat, n: nat, k: nat)
    requires k < n
    ensures Judgements(judge, net, at, n)[k] == judge(net(at + k))
    decreases n
  {
    if k > 0 {
      JudgementAt(judge, net, at + 1, n - 1, k - 1);
    }
  }

  lemma VerdictAt(judge: Attempt -> Verdict, net: Net, at: nat, k: nat)
    requires k < MaxAttempts
    ensures Verdicts(judge, net, at)[k] == judge(net(at + k))
  {
    JudgementAt(judge, net, at, MaxAttempts, k);
  }

  /** The requests and sleeps of the call whose first request is `at`. */
  function Calling(judge: Attempt -> Verdict, net: Net, at: nat): (r: Run)
    ensures 1 <= r.attempts <= MaxAttempts
  {
    Retrying(Verdicts(judge, net, at), 0)
  }

  /** The answer the call returns on: the answer to its last request. */
  function LastAnswer(judge: Attempt -> Verdict, net: Net, at: nat): Attempt {
    net(at + Calling(judge, net, at).attempts - 1)
  }

  /** Every answer of a call but the last is retried, and a call ends on a
      retried answer only when no retry is left. */
  lemma CallingRetried(judge: Attempt -> Verdict, net: Net, at: nat)
    ensures var n := Calling(judge, net, at).attempts;
            && (forall i :: at <= i < at + n - 1 ==> judge(net(i)).Retried?)
            && (judge(LastAnswer(judge, net, at)).Retried? ==> n == MaxAttempts)
  {
    var v := Verdicts(judge, net, at);
    var n := Retrying(v, 0).attempts;
    forall i | at <= i < at + n - 1
      ensures judge(net(i)).Retried?
    {
      assert v[i - at].Retried?;
      VerdictAt(judge, net, at, i - at);
    }
    VerdictAt(judge, net, at, n - 1);
  }

  /** The sleeps of a call: the backoff sleeps of its retries, then the
      pause of its last answer. */
  lemma CallingSleeps(judge: Attempt -> Verdict, net: Net, at: nat)
    ensures var r := Calling(judge, net, at);
            r.sleeps == Backoff(0, r.attempts - 1) + LastPause(judge(LastAnswer(judge, net, at)))
  {
    var v := Verdicts(judge, net, at);
    RetryingSleeps(v, 0);
    VerdictAt(judge, net, at, Retrying(v, 0).attempts - 1);
  }

  /** A call whose first k answers are retried and whose answer k is final
      issues exactly k+1 requests and returns on answer k. */
  lemma CallingEndsAt(judge: Attempt -> Verdict, net: Net, at: nat, k: nat)
    requires k < MaxAttempts
    requires forall i :: at <= i < at + k ==> judge(net(i)).Retried?
    requires judge(net(at + k)).Final?
    ensures Calling(judge, net, at).attempts == k + 1
    ensures LastAnswer(judge, net, at) == net(at + k)
  {
    var v := Verdicts(judge, net, at);
    forall j | 0 <= j < k
      ensures v[j].Retried?
    {
      assert judge(net(at + j)).Retried?;
      VerdictAt(judge, net, at, j);
    }
    VerdictAt(judge, net, at, k);
    FirstFinalEnds(v, k);
  }

  /** A call whose every allowed answer is retried issues RetryLimit+1
      requests, sleeps 1, 2 and 4 seconds, and returns on its last answer. */
  lemma CallingExhausts(judge: Attempt -> Verdict, net: Net, at: nat)
    requires forall i :: at <= i < at + MaxAttempts ==> judge(net(i)).Retried?
    ensures Calling(judge, net, at) == Run(MaxAttempts, [1000, 2000, 4000])
    ensures LastAnswer(judge, net, at) == net(at + RetryLimit)
  {
    var v := Verdicts(judge, net, at);
    forall j | 0 <= j < MaxAttempts
      ensures v[j].Retried?
    {
      assert judge(net(at + j)).Retried?;
      VerdictAt(judge, net, at, j);
    }
    AllRetriedExhausts(v);
  }
}

=== FILE: scheduler.dfy ===
/** The rounds of the resumable collector. A run reads the success index,
    builds the pending list, empties the failed file, and processes rounds:
    each round processes every pending repository, the unsuccessful ones
    (reduced to their three row fields) replace the failed file and form
    the next round after a five-second pause, and a round without failures
    ends the run. The worker pool is modelled as processing a round's rows
    one after the other, in the order the workers finish them, which is a
    parameter: any permutation of the pending rows. */
module Scheduler {
  import opened Common
  import opened Processor
  import opened Pending

  /** The pause between two rounds, in milliseconds. */
  const CooldownMs: nat := 5000

  /** The logs only grow while a round runs: the output and the success
      index are extended, never rewritten, and ids are never removed. */
  predicate Extends(s: Store, t: Store) {
    && |s.output| <= |t.output| && t.output[..|s.output|] == s.output
    && |s.successIndex| <= |t.successIndex| && t.successIndex[..|s.successIndex|] == s.successIndex
    && s.successIds <= t.successIds
  }

  lemma CommitExtends(s: Store, rec: Record)
    ensures Extends(s, Commit(s, rec))
  {
  }

  lemma ExtendsTrans(s: Store, t: Store, u: Store)
    requires Extends(s, t) && Extends(t, u)
    ensures Extends(s, u)
  {
    assert u.output[..|s.output|] == u.output[..|t.output|][..|s.output|];
    assert u.successIndex[..|s.successIndex|] == u.successIndex[..|t.successIndex|][..|s.successIndex|];
  }

  /** The rows of some records, in order. */
  function RowsOfRecords(recs: seq<Record>): (rows: seq<Row>)
    ensures |rows| == |recs|
    ensures forall i :: 0 <= i < |recs| ==> rows[i] == recs[i].row
  {
    if recs == [] then [] else [recs[0].row] + RowsOfRecords(recs[1..])
  }

  /** The successful records, in order. */
  function Successes(recs: seq<Record>): seq<Record> {
    if recs == [] then []
    else (if recs[0].success then [recs[0]] else []) + Successes(recs[1..])
  }

  /** The failed-file lines the unsuccessful records append, in order. */
  function FailedLines(recs: seq<Record>): seq<FailedLine> {
    if recs == [] then []
    else (if recs[0].success then [] else [FullRecord(recs[0])]) + FailedLines(recs[1..])
  }

  /** The next round: the rows of the unsuccessful records, in order. A row
      is passed on exactly when some unsuccessful record is about it. */
  function FailedNext(recs: seq<Record>): (next: seq<Row>)
    ensures forall r :: r in next <==> exists i :: 0 <= i < |recs| && !recs[i].success && recs[i].row == r
  {
    if recs == [] then []
    else
      var rest := FailedNext(recs[1..]);
      var next := (if recs[0].success then [] else [recs[0].row]) + rest;
      assert forall r :: r in next <==> exists i :: 0 <= i < |recs| && !recs[i].success && recs[i].row == r by {
        forall r | r in next
          ensures exists i :: 0 <= i < |recs| && !recs[i].success && recs[i].row == r
        {
          if r !in rest {
            assert !recs[0].success && recs[0].row == r;
          } else {
            var j :| 0 <= j < |recs[1..]| && !recs[1..][j].success && recs[1..][j].row == r;
            assert recs[j + 1] == recs[1..][j];
          }
        }
        forall r, i | 0 <= i < |recs| && !recs[i].success && recs[i].row == r
          ensures r in next
        {
          if i > 0 {
            assert recs[1..][i - 1] == recs[i];
          }
        }
      }
      next
  }

  /** The failed file written at the end of a round with failures. */
  function RowOnlyLines(rows: seq<Row>): (lines: seq<FailedLine>)
    ensures |lines| == |rows|
    ensures forall i :: 0 <= i < |rows| ==> lines[i] == RowOnly(rows[i])
  {
    if rows == [] then [] else [RowOnly(rows[0])] + RowOnlyLines(rows[1..])
  }

  /** What a worker does for one repository, as a function of the index of
      its first request: the record and its requests and sleeps. */
  type Maker = (nat, Row) -> Made

  /** The worker's record is about the row it was given. */
  ghost predicate KeepsRows(make: Maker) {
    forall at: nat, row: Row :: make(at, row).rec.row == row
  }

  /** The worker of the collector on a given network and decoder. */
  function MakerOf(net: Net, decode: Decoder): (make: Maker)
    ensures KeepsRows(make)
  {
    (at: nat, row: Row) => MakeRecord(net, at, decode, row)
  }

  /** The end of one round: a record per pending repository, in order, the
      logs after the round, the next request index and the sleeps made. */
  datatype RoundEnd = RoundEnd(records: seq<Record>, store: Store, at: nat, sleeps: seq<int>)

  /** One round over the pending rows, from request `at` on: each record is
      committed to the logs as soon as it is made. */
  function RunRound(make: Maker, at: nat, rows: seq<Row>, s: Store): (e: RoundEnd)
    ensures |e.records| == |rows|
    decreases |rows|
  {
    if rows == [] then RoundEnd([], s, at, [])
    else
      var m := make(at, rows[0]);
      var rest := RunRound(make, at + m.requests, rows[1..], Commit(s, m.rec));
      RoundEnd([m.rec] + rest.records, rest.store, rest.at, m.sleeps + rest.sleeps)
  }

  /** A round makes one record per row, in row order. */
  lemma {:induction false} RoundRows(make: Maker, at: nat, rows: seq<Row>, s: Store)
    requires KeepsRows(make)
    ensures RowsOfRecords(RunRound(make, at, rows, s).records) == rows
    decreases |rows|
  {
    if rows != [] {
      var m := make(at, rows[0]);
      var rest := RunRound(make, at + m.requests, rows[1..], Commit(s, m.rec));
      RoundRows(make, at + m.requests, rows[1..], Commit(s, m.rec));
      assert RunRound(make, at, rows, s).records[1..] == rest.records;
    }
  }

  /** Every record of the list is a success. */
  predicate AllSucceed(recs: seq<Record>) {
    forall i :: 0 <= i < |recs| ==> recs[i].success
  }

  lemma DistinctUncons(r: Row, rows: seq<Row>)
    requires DistinctIds([r] + rows)
    ensures DistinctIds(rows) && r.repoId !in Ids(rows)
  {
    var l := [r] + rows;
    forall j | 0 <= j < |rows|
      ensures rows[j].repoId != r.repoId
    {
      assert l[0] == r && l[j + 1] == rows[j];
    }
    forall i, j | 0 <= i < j < |rows|
      ensures rows[i].repoId != rows[j].repoId
    {
      assert l[i + 1] == rows[i] && l[j + 1] == rows[j];
    }
    IdsIndex(rows, r.repoId);
  }

  lemma DistinctCons(r: Row, rows: seq<Row>)
    requires DistinctIds(rows) && r.repoId !in Ids(rows)
    ensures DistinctIds([r] + rows)
  {
    IdsIndex(rows, r.repoId);
    assert forall j :: 0 < j < |[r] + rows| ==> ([r] + rows)[j] == rows[j - 1];
  }

  lemma IdsCons(r: Row, rows: seq<Row>)
    ensures Ids([r] + rows) == {r.repoId} + Ids(rows)
  {
    assert ([r] + rows)[1..] == rows;
  }

  lemma RowsOfRecordsCons(recs: seq<Record>)
    requires recs != []
    ensures RowsOfRecords(recs) == [recs[0].row] + RowsOfRecords(recs[1..])
  {
  }

  /** The next round is never longer than the current one. */
  lemma {:induction false} FailedNextShorter(recs: seq<Record>)
    ensures |FailedNext(recs)| <= |recs|
  {
    if recs != [] {
      FailedNextShorter(recs[1..]);
    }
  }

  /** The next round holds only rows of the current one. */
  lemma {:induction false} FailedNextWithin(recs: seq<Record>)
    ensures Ids(FailedNext(recs)) <= Ids(RowsOfRecords(recs))
  {
    if recs != [] {
      FailedNextWithin(recs[1..]);
      RowsOfRecordsCons(recs);
      IdsCons(recs[0].row, RowsOfRecords(recs[1..]));
      if !recs[0].success {
        IdsCons(recs[0].row, FailedNext(recs[1..]));
      } else {
        assert FailedNext(recs) == FailedNext(recs[1..]);
      }
    }
  }

  /** Every unsuccessful repository of the round is retried in the next. */
  lemma {:induction false} FailedNextCovers(recs: seq<Record>, i: nat)
    requires i < |recs| && !recs[i].success
    ensures recs[i].row.repoId in Ids(FailedNext(recs))
  {
    if i == 0 {
      assert FailedNext(recs) == [recs[0].row] + FailedNext(recs[1..]);
    } else {
      FailedNextCovers(recs[1..], i - 1);
      var head := if recs[0].success then [] else [recs[0].row];
      assert FailedNext(recs) == head + FailedNext(recs[1..]);
      IdsIndex(FailedNext(recs[1..]), recs[i].row.repoId);
      var k :| 0 <= k < |FailedNext(recs[1..])| && FailedNext(recs[1..])[k].repoId == recs[i].row.repoId;
      assert FailedNext(recs)[|head| + k] == FailedNext(recs[1..])[k];
      IdsIndex(FailedNext(recs), recs[i].row.repoId);
    }
  }

  /** When a round has no id twice, an id is passed on to the next round
      exactly when its repository did not succeed. */
  lemma {:induction false} FailedNextIdIff(recs: seq<Record>, i: nat)
    requires DistinctIds(RowsOfRecords(recs)) && i < |recs|
    ensures recs[i].row.repoId in Ids(FailedNext(recs)) <==> !recs[i].success
  {
    if !recs[i].success {
      FailedNextCovers(recs, i);
    } else {
      var next := FailedNext(recs);
      var rows := RowsOfRecords(recs);
      var id := rows[i].repoId;
      forall k | 0 <= k < |next|
        ensures next[k].repoId != id
      {
        assert next[k] in next;
      }
      IdsIndex(next, id);
    }
  }

  /** A round without repeated ids makes a next round without them. */
  lemma {:induction false} FailedNextDistinct(recs: seq<Record>)
    requires DistinctIds(RowsOfRecords(recs))
    ensures DistinctIds(FailedNext(recs))
  {
    if recs != [] {
      RowsOfRecordsCons(recs);
      DistinctUncons(recs[0].row, RowsOfRecords(recs[1..]));
      FailedNextDistinct(recs[1..]);
      if !recs[0].success {
        FailedNextWithin(recs[1..]);
        DistinctCons(recs[0].row, FailedNext(recs[1..]));
      }
    }
  }

  /** The next round is empty exactly when every repository succeeded, and
      then no failed-file line was appended either. */
  lemma {:induction false} FailedNextEmpty(recs: seq<Record>)
    ensures FailedNext(recs) == [] <==> AllSucceed(recs)
    ensures FailedNext(recs) == [] <==> FailedLines(recs) == []
  {
    if recs != [] {
      FailedNextEmpty(recs[1..]);
      if recs[0].success && AllSucceed(recs[1..]) {
        assert forall i :: 0 < i < |recs| ==> recs[i] == recs[1..][i - 1];
      }
    }
  }

  /** The output after a round: the successes appended in order. */
  lemma {:induction false} RoundOutput(make: Maker, at: nat, rows: seq<Row>, s: Store)
    ensures var e := RunRound(make, at, rows, s);
            e.store.output == s.output + Successes(e.records)
    decreases |rows|
  {
    if rows != [] {
      var m := make(at, rows[0]);
      RoundOutput(make, at + m.requests, rows[1..], Commit(s, m.rec));
      var e := RunRound(make, at, rows, s);
      assert e.records[1..] == RunRound(make, at + m.requests, rows[1..], Commit(s, m.rec)).records;
    }
  }

  /** The failed file after a round: the failures appended in order, as
      full records. */
  lemma {:induction false} RoundFailed(make: Maker, at: nat, rows: seq<Row>, s: Store)
    ensures var e := RunRound(make, at, rows, s);
            e.store.failed == s.failed + FailedLines(e.records)
    decreases |rows|
  {
    if rows != [] {
      var m := make(at, rows[0]);
      RoundFailed(make, at + m.requests, rows[1..], Commit(s, m.rec));
      var e := RunRound(make, at, rows, s);
      assert e.records[1..] == RunRound(make, at + m.requests, rows[1..], Commit(s, m.rec)).records;
    }
  }

  /** A round only extends the logs, and keeps the index in step with the
      success set. */
  lemma {:induction false} RoundExtends(make: Maker, at: nat, rows: seq<Row>, s: Store)
    ensures Extends(s, RunRound(make, at, rows, s).store)
    ensures Consistent(s) ==> Consistent(RunRound(make, at, rows, s).store)
    decreases |rows|
  {
    if rows != [] {
      var m := make(at, rows[0]);
      RoundExtends(make, at + m.requests, rows[1..], Commit(s, m.rec));
      CommitExtends(s, m.rec);
      ExtendsTrans(s, Commit(s, m.rec), RunRound(make, at + m.requests, rows[1..], Commit(s, m.rec)).store);
      if Consistent(s) {
        CommitKeepsConsistent(s, m.rec);
      }
    }
  }

  /** After a round, every repository that succeeded in it has its id in
      the success set. */
  lemma {:induction false} RoundSuccessIds(make: Maker, at: nat, rows: seq<Row>, s: Store, i: nat)
    requires var e := RunRound(make, at, rows, s);
             i < |e.records| && e.records[i].success
    ensures var e := RunRound(make, at, rows, s);
            e.records[i].row.repoId in e.store.successIds
    decreases |rows|
  {
    var m := make(at, rows[0]);
    RoundExtends(make, at + m.requests, rows[1..], Commit(s, m.rec));
    if i > 0 {
      RoundSuccessIds(make, at + m.requests, rows[1..], Commit(s, m.rec), i - 1);
    }
  }

  /** Rows with distinct ids are distinct rows. */
  lemma {:induction false} CountAtMostOnce(a: seq<Row>, x: Row)
    requires DistinctIds(a)
    ensures multiset(a)[x] <= 1
  {
    if a != [] {
      assert a == [a[0]] + a[1..];
      DistinctUncons(a[0], a[1..]);
      CountAtMostOnce(a[1..], x);
      if x == a[0] {
        IdsIndex(a[1..], x.repoId);
        assert x !in a[1..];
      }
    }
  }

  /** A row found at two positions is counted twice. */
  lemma TwiceCounted(b: seq<Row>, i: nat, j: nat)
    requires i < j < |b| && b[i] == b[j]
    ensures multiset(b)[b[i]] >= 2
  {
    assert b == b[..j] + [b[j]] + b[j + 1..];
    assert b[i] in b[..j];
  }

  /** Reordering keeps the ids. */
  lemma PermutedIds(a: seq<Row>, b: seq<Row>)
    requires multiset(a) == multiset(b)
    ensures Ids(a) == Ids(b)
  {
    forall id
      ensures id in Ids(a) <==> id in Ids(b)
    {
      IdsIndex(a, id);
      IdsIndex(b, id);
      if id in Ids(a) {
        var i :| 0 <= i < |a| && a[i].repoId == id;
        assert a[i] in multiset(b);
        var j :| 0 <= j < |b| && b[j] == a[i];
      }
      if id in Ids(b) {
        var j :| 0 <= j < |b| && b[j].repoId == id;
        assert b[j] in multiset(a);
        var i :| 0 <= i < |a| && a[i] == b[j];
      }
    }
  }

  /** Reordering rows with distinct ids leaves them distinct. */
  lemma PermutedDistinct(a: seq<Row>, b: seq<Row>)
    requires DistinctIds(a) && multiset(a) == multiset(b)
    ensures DistinctIds(b)
  {
    forall i, j | 0 <= i < j < |b|
      ensures b[i].repoId != b[j].repoId
    {
      if b[i] == b[j] {
        TwiceCounted(b, i, j);
        CountAtMostOnce(a, b[i]);
        assert false;
      } else {
        assert b[i] in multiset(a) && b[j] in multiset(a);
        var p :| 0 <= p < |a| && a[p] == b[i];
        var q :| 0 <= q < |a| && a[q] == b[j];
        assert p != q;
      }
    }
  }

  /** The end of the rounds: the logs, the next request index, the number
      of rounds run, the sleeps made, and the rows still pending when the
      allowed number of rounds ran out (empty when the loop ended). */
  datatype Outcome = Outcome(store: Store, at: nat, rounds: nat, sleeps: seq<int>, left: seq<Row>)

  /** The round loop, allowed at most `fuel` rounds: each round processes
      its pending rows in the order the workers finish them; a round with
      failures overwrites the failed file with their rows and pauses before
      the next round over exactly those rows, in the order they failed; a
      round without failures ends the loop and leaves the failed file as it
      is. */
  function Rounds(make: Maker, order: Order, rows: seq<Row>, s: Store, at: nat, fuel: nat): (o: Outcome)
    ensures o.rounds <= fuel
    ensures rows == [] ==> o == Outcome(s, at, 0, [], [])
    decreases fuel
  {
    if rows == [] then Outcome(s, at, 0, [], [])
    else if fuel == 0 then Outcome(s, at, 0, [], rows)
    else
      var e := RunRound(make, at, order(at, rows), s);
      var next := FailedNext(e.records);
      if next == [] then Outcome(e.store, e.at, 1, e.sleeps, [])
      else
        var o := Rounds(make, order, next, e.store.(failed := RowOnlyLines(next)), e.at, fuel - 1);
        Outcome(o.store, o.at, o.rounds + 1, e.sleeps + [CooldownMs] + o.sleeps, o.left)
  }

  /** The loop ends after the first round exactly when that round has no
      failures; the failed file then still holds what it held before the
      round, since nothing was appended to it. */
  lemma {:induction false} RoundsExitClean(make: Maker, order: Order, rows: seq<Row>, s: Store, at: nat, fuel: nat)
    requires rows != [] && fuel >= 2
    ensures var o := Rounds(make, order, rows, s, at, fuel);
            var e := RunRound(make, at, order(at, rows), s);
            && (o.rounds == 1 <==> AllSucceed(e.records))
            && (o.rounds == 1 ==> o.left == [] && o.store == e.store && o.store.failed == s.failed)
  {
    var e := RunRound(make, at, order(at, rows), s);
    FailedNextEmpty(e.records);
    RoundFailed(make, at, order(at, rows), s);
    var next := FailedNext(e.records);
    if next != [] {
      var o := Rounds(make, order, next, e.store.(failed := RowOnlyLines(next)), e.at, fuel - 1);
      assert o.rounds >= 1;
    }
  }

  /** The rows a round with failures passes on are some of its pending
      rows, and never more of them, whatever order the round ran in. */
  lemma PassesOnWithin(make: Maker, order: Order, at: nat, rows: seq<Row>, s: Store)
    requires KeepsRows(make) && Permutes(order)
    ensures var next := FailedNext(RunRound(make, at, order(at, rows), s).records);
            |next| <= |rows| && Ids(next) <= Ids(rows)
  {
    var run := order(at, rows);
    var e := RunRound(make, at, run, s);
    assert |run| == |multiset(run)| == |multiset(rows)| == |rows|;
    RoundRows(make, at, run, s);
    FailedNextShorter(e.records);
    FailedNextWithin(e.records);
    PermutedIds(rows, run);
  }

  /** A round whose pending rows have distinct ids passes on rows with
      distinct ids, whatever order it ran in. */
  lemma PassesOnDistinct(make: Maker, order: Order, at: nat, rows: seq<Row>, s: Store)
    requires KeepsRows(make) && Permutes(order) && DistinctIds(rows)
    ensures DistinctIds(FailedNext(RunRound(make, at, order(at, rows), s).records))
  {
    var run := order(at, rows);
    PermutedDistinct(rows, run);
    RoundRows(make, at, run, s);
    FailedNextDistinct(RunRound(make, at, run, s).records);
  }

  /** A round with failures is followed by a round over exactly its
      unsuccessful rows, with the failed file holding just those rows. */
  lemma RoundsContinue(make: Maker, order: Order, rows: seq<Row>, s: Store, at: nat, fuel: nat)
    requires KeepsRows(make) && Permutes(order)
    requires rows != [] && fuel >= 1
    requires !AllSucceed(RunRound(make, at, order(at, rows), s).records)
    ensures var e := RunRound(make, at, order(at, rows), s);
            var next := FailedNext(e.records);
            var o := Rounds(make, order, rows, s, at, fuel);
            var o2 := Rounds(make, order, next, e.store.(failed := RowOnlyLines(next)), e.at, fuel - 1);
            && 1 <= |next| <= |rows| && Ids(next) <= Ids(rows)
            && o.store == o2.store && o.rounds == o2.rounds + 1 && o.left == o2.left
            && o.sleeps == e.sleeps + [CooldownMs] + o2.sleeps
  {
    var e := RunRound(make, at, order(at, rows), s);
    FailedNextEmpty(e.records);
    PassesOnWithin(make, order, at, rows, s);
  }

  /** Across all rounds the logs only grow and the index stays in step
      with the success set. */
  lemma {:induction false} RoundsExtends(make: Maker, order: Order, rows: seq<Row>, s: Store, at: nat, fuel: nat)
    ensures Extends(s, Rounds(make, order, rows, s, at, fuel).store)
    ensures Consistent(s) ==> Consistent(Rounds(make, order, rows, s, at, fuel).store)
    decreases fuel
  {
    if rows != [] && fuel > 0 {
      var e := RunRound(make, at, order(at, rows), s);
      var next := FailedNext(e.records);
      RoundExtends(make, at, order(at, rows), s);
      if next != [] {
        var s2 := e.store.(failed := RowOnlyLines(next));
        RoundsExtends(make, order, next, s2, e.at, fuel - 1);
        ExtendsTrans(s, s2, Rounds(make, order, next, s2, e.at, fuel - 1).store);
      }
    }
  }

  /** The rows left when the allowed rounds run out are pending rows, and
      never more of them. */
  lemma {:induction false} RoundsLeftWithin(make: Maker, order: Order, rows: seq<Row>, s: Store, at: nat, fuel: nat)
    requires KeepsRows(make) && Permutes(order)
    ensures |Rounds(make, order, rows, s, at, fuel).left| <= |rows|
    ensures Ids(Rounds(make, order, rows, s, at, fuel).left) <= Ids(rows)
    decreases fuel
  {
    if rows != [] && fuel > 0 {
      var e := RunRound(make, at, order(at, rows), s);
      var next := FailedNext(e.records);
      if next != [] {
        PassesOnWithin(make, order, at, rows, s);
        RoundsLeftWithin(make, order, next, e.store.(failed := RowOnlyLines(next)), e.at, fuel - 1);
      }
    }
  }

  /** No id is left pending twice when the pending list had none twice. */
  lemma {:induction false} RoundsLeftDistinct(make: Maker, order: Order, rows: seq<Row>, s: Store, at: nat, fuel: nat)
    requires KeepsRows(make) && Permutes(order) && DistinctIds(rows)
    ensures DistinctIds(Rounds(make, order, rows, s, at, fuel).left)
    decreases fuel
  {
    if rows != [] && fuel > 0 {
      var e := RunRound(make, at, order(at, rows), s);
      var next := FailedNext(e.records);
      if next != [] {
        PassesOnDistinct(make, order, at, rows, s);
        RoundsLeftDistinct(make, order, next, e.store.(failed := RowOnlyLines(next)), e.at, fuel - 1);
      }
    }
  }

  /** Rows are left only when every allowed round ran. */
  lemma {:induction false} RoundsLeftOnlyOutOfFuel(make: Maker, order: Order, rows: seq<Row>, s: Store, at: nat, fuel: nat)
    requires Rounds(make, order, rows, s, at, fuel).left != []
    ensures Rounds(make, order, rows, s, at, fuel).rounds == fuel
    decreases fuel
  {
    if rows != [] && fuel > 0 {
      var e := RunRound(make, at, order(at, rows), s);
      var next := FailedNext(e.records);
      if next != [] {
        RoundsLeftOnlyOutOfFuel(make, order, next, e.store.(failed := RowOnlyLines(next)), e.at, fuel - 1);
      }
    }
  }

  /** The failed file is stale after a clean finish: when the first round
      has failures and the second round succeeds for all of them, the loop
      ends with the failed file listing exactly those rows, although every
      one of their ids is now in the success set. */
  lemma StaleFailedFile(make: Maker, order: Order, rows: seq<Row>, s: Store, at: nat, fuel: nat)
    requires KeepsRows(make) && Permutes(order)
    requires fuel >= 2 && rows != []
    requires var e := RunRound(make, at, order(at, rows), s);
             var next := FailedNext(e.records);
             && next != []
             && AllSucceed(RunRound(make, e.at, order(e.at, next), e.store.(failed := RowOnlyLines(next))).records)
    ensures var e := RunRound(make, at, order(at, rows), s);
            var next := FailedNext(e.records);
            var o := Rounds(make, order, rows, s, at, fuel);
            && o.left == [] && o.rounds == 2
            && o.store.failed == RowOnlyLines(next)
            && forall i :: 0 <= i < |next| ==> next[i].repoId in o.store.successIds
  {
    var e := RunRound(make, at, order(at, rows), s);
    var next := FailedNext(e.records);
    var s2 := e.store.(failed := RowOnlyLines(next));
    var run := order(e.at, next);
    var e2 := RunRound(make, e.at, run, s2);
    FailedNextEmpty(e2.records);
    RoundFailed(make, e.at, run, s2);
    forall i | 0 <= i < |next|
      ensures next[i].repoId in e2.store.successIds
    {
      assert next[i] in multiset(run);
      SucceededRowsRecorded(make, e.at, run, s2, next[i]);
    }
  }

  /** After a round in which every repository succeeded, each of its rows
      has its id in the success set. */
  lemma SucceededRowsRecorded(make: Maker, at: nat, rows: seq<Row>, s: Store, row: Row)
    requires KeepsRows(make) && row in rows
    requires AllSucceed(RunRound(make, at, rows, s).records)
    ensures row.repoId in RunRound(make, at, rows, s).store.successIds
  {
    var e := RunRound(make, at, rows, s);
    var j :| 0 <= j < |rows| && rows[j] == row;
    RoundRows(make, at, rows, s);
    assert RowsOfRecords(e.records)[j] == e.records[j].row;
    RoundSuccessIds(make, at, rows, s, j);
  }

  /** The run: the pending list of the ranking and the failed file, then the
      retry rounds, starting from the output and success index already on
      disk. A run only appends to the output and to the success index, keeps
      the index free of repeated ids when it starts so, and never leaves more
      rows pending than it started with, whatever order the workers finish
      in. */
  function Run(net: Net, decode: Decoder, order: Order, csv: seq<Row>, output: seq<Record>, index: seq<SuccessEntry>, failedFile: seq<FailedLine>, fuel: nat): (o: Outcome)
    requires Permutes(order)
    ensures |output| <= |o.store.output| && o.store.output[..|output|] == output
    ensures |index| <= |o.store.successIndex| && o.store.successIndex[..|index|] == index
    ensures DistinctIndex(index) ==> Consistent(o.store)
    ensures |o.left| <= |PendingList(csv, IndexIds(index), failedFile)| && DistinctIds(o.left)
  {
    var ids := IndexIds(index);
    var p := PendingList(csv, ids, failedFile);
    var make := MakerOf(net, decode);
    var s := Store(output, index, [], ids);
    PendingListSpec(csv, ids, failedFile);
    RoundsExtends(make, order, p, s, 0, fuel);
    RoundsLeftWithin(make, order, p, s, 0, fuel);
    RoundsLeftDistinct(make, order, p, s, 0, fuel);
    Rounds(make, order, p, s, 0, fuel)
  }
}

=== FILE: script.dfy ===
/** The first, sequential collector: one request per endpoint and no retry.
    A status other than 200 reads as "nothing"; an exception from the
    transport or from parsing a 200 body is not caught and ends the run. A
    repository without metadata is skipped; any other one is written, with
    a null README when none was found. */
module Script {
  import opened Common

  /** What a step of the run gives: a value, or an exception that escapes. */
  datatype Outcome<T> = Ok(value: T) | Raises(error: Exn)

  /** The metadata step on one answer: nothing for a status other than 200,
      the three fields of a 200 payload (even an empty one). */
  function GetRepoInfo(a: Attempt): (r: Outcome<Option<RepoMeta>>)
    ensures r.Raises? <==> a.Raised? || (a.status == 200 && a.body.NotJson?)
    ensures r == Ok(None) <==> a.Reply? && a.status != 200
    ensures r.Ok? && r.value.Some? ==> r.value.value == MetaOf(a.body.fields)
  {
    match a
    case Raised(e) => Raises(e)
    case Reply(status, _, _, body, _) =>
      if status != 200 then Ok(None)
      else
        match body
        case NotJson(e) => Raises(e)
        case JsonObject(data) => Ok(Some(MetaOf(data)))
  }

  /** The README step on one answer: the decoded `content` field of a 200
      payload, and nothing for another status, a missing field or a
      decoding failure. */
  function GetReadme(a: Attempt, decode: Decoder): (r: Outcome<Option<string>>)
    ensures r.Raises? <==> a.Raised? || (a.status == 200 && a.body.NotJson?)
    ensures r.Ok? && r.value.Some? <==>
              a.Reply? && a.status == 200 && a.body.JsonObject? && "content" in a.body.fields
              && decode(a.body.fields["content"]).Decoded?
    ensures r.Ok? && r.value.Some? ==> r.value.value == decode(a.body.fields["content"]).text
  {
    match a
    case Raised(e) => Raises(e)
    case Reply(status, _, _, body, _) =>
      if status != 200 then Ok(None)
      else
        match body
        case NotJson(e) => Raises(e)
        case JsonObject(data) =>
          if "content" !in data then Ok(None)
          else
            match decode(data["content"])
            case Decoded(text) => Ok(Some(text))
            case Undecodable(_) => Ok(None)
  }

  /** The record written for one repository: no success flag, no reason. */
  datatype Record = Record(row: Row, meta: RepoMeta, readmeText: Option<string>)

  /** The end of a run: every row was handled and the next request index is
      `at`, or an exception ended it; either way `output` is what had been
      written by then. */
  datatype Scanned = Finished(output: seq<Record>, at: nat) | Crashed(output: seq<Record>, error: Exn)

  /** The run over the rows from request `at` on: a row costs one request
      when skipped and two when written. */
  function Scan(net: Net, decode: Decoder, rows: seq<Row>, at: nat): (o: Scanned)
    ensures |o.output| <= |rows|
    ensures o.Finished? ==> o.at == at + |rows| + |o.output|
    decreases |rows|
  {
    if rows == [] then Finished([], at)
    else
      match GetRepoInfo(net(at))
      case Raises(e) => Crashed([], e)
      case Ok(None) => Scan(net, decode, rows[1..], at + 1)
      case Ok(Some(meta)) =>
        match GetReadme(net(at + 1), decode)
        case Raises(e) => Crashed([], e)
        case Ok(text) =>
          var rest := Scan(net, decode, rows[1..], at + 2);
          var out := [Record(rows[0], meta, text)] + rest.output;
          if rest.Finished? then Finished(out, rest.at) else Crashed(out, rest.error)
  }

  /** `a` lists some of the elements of `b`, in the same order. */
  predicate Subsequence<T(==)>(a: seq<T>, b: seq<T>)
    decreases |b|
  {
    if a == [] then true
    else if b == [] then false
    else (a[0] == b[0] && Subsequence(a[1..], b[1..])) || Subsequence(a, b[1..])
  }

  function RowsOfRecords(recs: seq<Record>): (rows: seq<Row>)
    ensures |rows| == |recs|
    ensures forall i :: 0 <= i < |recs| ==> rows[i] == recs[i].row
  {
    if recs == [] then [] else [recs[0].row] + RowsOfRecords(recs[1..])
  }

  /** The rows of the output are some of the CSV's rows, in CSV order and
      each at most once per occurrence: a run only skips rows. */
  lemma {:induction false} ScanKeepsOrder(net: Net, decode: Decoder, rows: seq<Row>, at: nat)
    ensures Subsequence(RowsOfRecords(Scan(net, decode, rows, at).output), rows)
    decreases |rows|
  {
    if rows != [] {
      var info := GetRepoInfo(net(at));
      if info == Ok(None) {
        ScanKeepsOrder(net, decode, rows[1..], at + 1);
        SubsequenceSkip(RowsOfRecords(Scan(net, decode, rows[1..], at + 1).output), rows);
      } else if info.Ok? && GetReadme(net(at + 1), decode).Ok? {
        ScanKeepsOrder(net, decode, rows[1..], at + 2);
        var rest := RowsOfRecords(Scan(net, decode, rows[1..], at + 2).output);
        var all := RowsOfRecords(Scan(net, decode, rows, at).output);
        assert all[0] == rows[0] && all[1..] == rest;
      }
    }
  }

  lemma SubsequenceSkip<T>(a: seq<T>, b: seq<T>)
    requires b != [] && Subsequence(a, b[1..])
    ensures Subsequence(a, b)
  {
  }

  /** A row whose metadata request answers with a status other than 200 is
      skipped after that single request. */
  lemma SkippedRow(net: Net, decode: Decoder, rows: seq<Row>, at: nat)
    requires rows != [] && net(at).Reply? && net(at).status != 200
    ensures Scan(net, decode, rows, at) == Scan(net, decode, rows[1..], at + 1)
  {
  }

  /** A repository whose metadata comes back but whose README does not
      (any status other than 200) is still written, with a null README. */
  lemma NullReadmeStillWritten(net: Net, decode: Decoder, rows: seq<Row>, at: nat)
    requires rows != []
    requires net(at).Reply? && net(at).status == 200 && net(at).body.JsonObject?
    requires net(at + 1).Reply? && net(at + 1).status != 200
    ensures var o := Scan(net, decode, rows, at);
            o.output != [] && o.output[0] == Record(rows[0], MetaOf(net(at).body.fields), None)
  {
  }

  /** An exception ends the run: if the first metadata request raises,
      nothing is written and the error escapes. */
  lemma FirstRequestRaises(net: Net, decode: Decoder, rows: seq<Row>, at: nat)
    requires rows != [] && net(at).Raised?
    ensures Scan(net, decode, rows, at) == Crashed([], net(at).error)
  {
  }

  /** A run in which every metadata request answers 404 writes nothing and
      issues one request per row. */
  lemma {:induction false} AllUnknownWritesNothing(net: Net, decode: Decoder, rows: seq<Row>, at: nat)
    requires forall i :: at <= i < at + |rows| ==> net(i).Reply? && net(i).status == 404
    ensures Scan(net, decode, rows, at) == Finished([], at + |rows|)
    decreases |rows|
  {
    if rows != [] {
      assert net(at).Reply? && net(at).status == 404;
      AllUnknownWritesNothing(net, decode, rows[1..], at + 1);
    }
  }
}
